=== FILE: README.md ===
# MGX Crypto Trading Bot backend core, modelled in Dafny

This project models the record-handling core of the crypto trading bot's
backend and proves properties about it. The core covers:

- the **trade ledger query**: filter, sort newest first, paginate, look up by
  id, and append with defaults;
- the **account store**: add with a read-back check, delete by id, and test a
  connection and record the result. These exist in three near-identical
  service files;
- the **dashboard aggregation**: total balance, open trades, today's profit,
  daily change and active bots;
- the **bot run-state service**: status, start and stop;
- the **websocket hub** (`ConnectionManager`) and **one pass of the price
  poller** that fills the price cache and broadcasts prices.

The shared controller `bc` is the class `AppState.BotController`. It holds:

- the stored account list, the trade journal and the run flag;
- a validator oracle standing for `validate_account`;
- a flag `dropsWrites`. When it is set, the storage medium silently discards
  account saves. This is the failure that `add_account` re-reads the list to
  detect.

Each `with bc._file_lock:` block is one method, so the lock itself does not
appear.

Python's dynamic values are the datatype `Values.Value`, and records are
`map<string, Value>`. The parts of Python the services depend on are written
out: truthiness, `or`, `dict.get`, and `==` (numbers compare by value
across bool, int and float, lists and dicts element by element). Integers are
`VInt(int)` and floats `VFloat(real)`; sums and `float()` results are `real`.

Inputs that come from outside are parameters:

- generated ids, the current time and "today";
- the result of `float()` on a string;
- ticker responses;
- which websocket sends raise.

`delete_account` and `test_account` in `services/accountsss_service.py` and
`services/accountss_service.py` behave the same as those in
`services/accounts_service.py`. Their `test_account` is the same code; their
`delete_account` rebinds the list and compares with its initial length
instead, which gives the same results.
`AccountStore.DeleteAccount` and `AccountStore.TestAccount` model all three.
The `add_account` of those two files fills defaults into the caller's record,
which is `DefaultingAccountsService.AddAccount`. The `add_account` of
`services/accounts_service.py` rebuilds the record from fixed keys, which is
`AccountsService.AddAccount`.

Each record's `id` is meant to identify it within the accounts and within
the trades, but no code enforces uniqueness. Every `add_account` and `append_trade` appends without
looking at the stored ids. A caller's id is kept: any id the record carries in
`services/accountsss_service.py`, `services/accountss_service.py` and
`append_trade`, and a truthy one in `services/accounts_service.py`. The model
keeps this behaviour. `Values.DistinctIds` states what uniqueness would mean.
The `AddAccountIds` and `AppendTradeIds` lemmas show two things. A generated
id that is not yet stored keeps the ids unique. A caller's id that is already
stored leaves two records with equal ids. The add is still reported as a
success. For accounts this follows from `AccountStore.AppendAndVerify`, which
succeeds whenever writes are kept. `History.AppendTrade` appends
unconditionally.

Files: `values.dfy`, `strings.dfy`, `app_state.dfy`, `history.dfy`,
`accounts.dfy`, `dashboard.dfy`, `bot.dfy`, `hub.dfy`, `poller.dfy`.

## Model

| member | source | states |
|---|---|---|
| Values.Or | services/accounts_service.py:36 | `a or b` yields one of its operands, and it is truthy iff either operand is |
| Values.PyEq | services/accounts_service.py:79-82 | Python's `==` on decoded values: numbers by value across bool, int and float, lists element by element, dicts key by key, all else structurally |
| Values.PyEqReflexive | services/accounts_service.py:79-82 | every value equals itself under `==`, so a stored id is always found in a list that holds it |
| Values.PyEqSymmetric | services/accounts_service.py:79-82 | `a == b` iff `b == a` |
| Values.ToFloat | service/dashboard_service.py:32-34 | `float(v)` is the value itself for bool/int/float and raises (None) for None, lists and dicts |
| Values.PyEqString | service/history_service.py:35 | comparing any value with a string under Python `==` is plain equality with that string |
| Values.FirstWithId | services/accounts_service.py:113 | `next(...)` finds the first record whose id equals the string, and finds none iff no record has it |
| Strings.LessIrreflexive | service/history_service.py:22 | no string sorts before itself |
| Strings.LessTransitive | service/history_service.py:22 | the string order used by the sort is transitive |
| Strings.LessTotal | service/history_service.py:22 | any two distinct strings are ordered one way or the other |
| Strings.NotLessTransitive | service/history_service.py:22 | "not before" is transitive, so a descending order can be checked on neighbours |
| Strings.Lower | service/history_service.py:16 | `lower()` keeps the length and lower-cases each character |
| Strings.LowerMatches | service/history_service.py:16-18 | `s.lower() == w` for a lower-case word holds iff `s` equals `w` ignoring case |
| AppState.BotController.SaveAccounts | services/accounts_service.py:71 | a save replaces the stored list, unless the medium drops the write |
| AppState.BotController.AddTrade | service/history_service.py:55 | `add_trade` appends exactly one record to the journal |
| AppState.BotController.Start | services/bot_service.py:27 | `start()` sets the run flag and counts one call |
| AppState.BotController.Stop | services/bot_service.py:37 | `stop()` clears the run flag and counts one call |
| History.Where | service/history_service.py:13-19 | a filter comprehension keeps exactly the trades that satisfy its condition and never grows the list |
| History.StatusCriterion | service/history_service.py:15-19 | "open" and "closed" in any letter case select `open is True` and `open is False`; no status, an empty one and every other word apply no status filter |
| History.Select | service/history_service.py:12-19 | the trades the query keeps before sorting: the symbol filter when a non-empty symbol is given, then the status filter, in journal order |
| History.SelectCons | service/history_service.py:12-19 | the first stored trade is kept exactly when it matches both filters on its own, and the rest is filtered independently |
| History.SelectCounts | service/history_service.py:12-19 | the filtered journal keeps every matching trade with its multiplicity and contains no other trade |
| History.SelectSize | service/history_service.py:12-24 | the number of filtered trades is the number of journal entries that pass the filters |
| History.Insert | service/history_service.py:22 | places a trade after every strictly newer trade and before the rest; one element longer |
| History.SortNewestFirst | service/history_service.py:22 | the stable descending sort on `entry_time or ""`; same length as its input |
| History.InsertCounts | service/history_service.py:22 | inserting into the sorted prefix adds the trade and loses nothing |
| History.SortCounts | service/history_service.py:22 | the sort is a permutation of its input |
| History.InsertNewestFirst | service/history_service.py:22 | inserting into a newest-first list keeps it newest first |
| History.SortIsNewestFirst | service/history_service.py:22 | the sorted list is non-increasing in `entry_time`, where a missing or empty time counts as "" |
| History.InsertWithKey | service/history_service.py:22 | inserting a trade places it before every trade with the same key that was already placed |
| History.SortIsStable | service/history_service.py:22 | for every key, the trades with that key keep their relative order: the sort is stable |
| History.Clamp | service/history_service.py:25 | a slice bound lands within the list, and a bound already inside stays put |
| History.Slice | service/history_service.py:25 | Python's `s[start:stop]` with both bounds normalised and clamped; empty when they cross |
| History.GetTrades | service/history_service.py:6-27 | the query always succeeds when every sort key is text; it fails only when some stored key is not; a page is never longer than `total` |
| History.GetTradesFails | service/history_service.py:12-22 | the query fails exactly when at least two trades pass the filters and one of them has a key that is not text; bad keys on filtered-out trades, or on a lone selected trade, never make it fail |
| History.GetTradesFilters | service/history_service.py:12-25 | every trade on a page is a stored trade that passes the symbol and status filters |
| History.GetTradesTotal | service/history_service.py:24 | `total` is the number of stored trades passing the filters |
| History.TotalIgnoresPaging | service/history_service.py:24-27 | whether the query succeeds and its `total` do not depend on `limit` or `offset` |
| History.GetTradesNewestFirst | service/history_service.py:21-25 | every page is ordered newest first |
| History.GetTradesPage | service/history_service.py:25 | for non-negative offset and limit, the page is `sorted[min(offset,n) .. min(offset+limit,n)]` and has length `min(limit, max(0, n - offset))` |
| History.DefaultPage | service/history_service.py:6 | with the defaults `limit=50` and `offset=0`, the page is the newest `min(50, total)` matching trades |
| History.SortedSelectionIsPermutation | service/history_service.py:10-22 | the sorted selection is a permutation of the stored trades that pass the filters |
| History.GetTradeById | service/history_service.py:29-37 | returns the first trade with the id, and None iff no trade has it |
| History.WithTradeDefaults | service/history_service.py:43-53 | `id`, `entry_time` and `open=True` are added only where missing; every present field is kept |
| History.TradeDefaultsIdempotent | service/history_service.py:43-53 | filling trade defaults a second time changes nothing |
| History.AppendTrade | service/history_service.py:39-56 | returns the record with defaults and appends exactly that record to the journal once; the ids stay unique if they were and the new id is not yet used, and a caller's id already in the journal leaves a duplicate |
| History.AppendTradeIds | service/history_service.py:43-55 | a caller's `id` already in the journal is journalled a second time; a trade without an id keeps the ids unique iff they were and the generated id is unused |
| AccountRecords.Normalize | services/accounts_service.py:34-43 | the account has exactly the seven keys; the id is kept when truthy and fresh otherwise; `name` and `exchange` are `data.get(k)`; `monitoring` and `position` are kept when present and default when absent |
| AccountRecords.NormalizedField | services/accounts_service.py:35-43 | one field of the normalised account, each by its own rule from the incoming data |
| AccountRecords.NormalizeCredentials | services/accounts_service.py:39-40 | `api_key` prefers `apiKey`; `api_secret` prefers `api_secret`, then `secretKey`, then `secret_key` |
| AccountRecords.DefaultsAfterNormalizeChangeNothing | services/accounts_service.py:45-52 | the id check and the two `setdefault` calls after normalising never change the record |
| AccountRecords.NormalizeIsStable | services/accounts_service.py:34-43 | normalising an account a second time changes nothing, given a non-empty fresh id and a secret that is truthy or None |
| AccountRecords.WithDefaults | services/accountss_service.py:15-21 | an id is generated only when the key is absent; `monitoring` and `position` default only when missing; every caller field is kept |
| AccountRecords.WithoutId | services/accounts_service.py:97 | the filter keeps exactly the accounts with another id, and shrinks the list iff some account has the id |
| AccountRecords.WithoutIdCounts | services/accounts_service.py:97 | each account with another id keeps its multiplicity; none with the id remains |
| AccountRecords.WithoutIdConcat | services/accounts_service.py:97 | the filter distributes over concatenation, so the remaining accounts keep their order |
| AccountRecords.WithoutIdIdempotent | services/accounts_service.py:97 | deleting an id twice is the same as deleting it once |
| AccountRecords.MarkValidated | services/accounts_service.py:126-128 | the three validation fields are set and every other field is kept |
| AccountStore.AppendAndVerify | services/accounts_service.py:63-86 | the stored list becomes the old list plus the record unless the write is dropped; success iff the re-read ids contain the new id; with writes kept it always succeeds; the ids stay unique if they were and the new id is not listed, and with writes kept an already listed id leaves a duplicate |
| Values.IdListed | services/accounts_service.py:79-82 | `id in [a.get("id") for a in after]`: some re-read account's id equals the id under Python `==` |
| Values.AppendDistinctIds | services/accounts_service.py:67-68 | after an append the ids are pairwise unequal iff they were before and the new id is not already listed |
| Values.AppendListedIdDuplicates | services/accounts_service.py:67-68 | appending a record whose id is already listed leaves two records with equal ids |
| AccountStore.VerificationOutcome | services/accounts_service.py:71-86 | with the write kept the id is always found; with it dropped, the check still passes iff an earlier account has an equal id |
| AccountStore.DeleteAccount | services/accounts_service.py:92-106 | "deleted" iff some account has the id, and then the list without those accounts is saved; "not_found" writes nothing |
| AccountStore.ValidatedAt | services/accounts_service.py:122-131 | only the account at the given position is marked validated; every other position is unchanged |
| AccountStore.TestAccount | services/accounts_service.py:109-136 | unknown id: "Account not found" and no write; validator failure: its reason and no write; success: only the first account with the id is marked, with the returned balance |
| AccountsService.AddAccount | services/accounts_service.py:31-89 | stores the normalised record after the old accounts, and reports success iff the re-read list lists its id |
| DefaultingAccountsService.AddAccount | services/accountsss_service.py:16-45 | stores the caller's record with defaults after the old accounts, and reports success iff the re-read list lists its id |
| AccountsService.AddAccountIds | services/accounts_service.py:36 | a truthy caller id that is already stored is stored again; with a falsy one the ids stay unique iff they were and the generated id is not stored |
| DefaultingAccountsService.AddAccountIds | services/accountsss_service.py:21-22 | any caller id that is already stored, falsy or not, is stored again; a record without an id keeps the ids unique iff they were and the generated id is not stored |
| Dashboard.TotalBalanceSplit | service/dashboard_service.py:10-16 | the balance of two account lists is the sum of their balances |
| Dashboard.TotalBalanceIgnores | service/dashboard_service.py:14-16 | an account whose balance is missing, falsy or not a number adds nothing, wherever it stands |
| Dashboard.BalanceOf | service/dashboard_service.py:14-16 | what one account adds: its balance as a real when truthy and numeric, else nothing |
| Dashboard.TotalBalance | service/dashboard_service.py:10-16 | the sum of what each account adds |
| Dashboard.CountOpen | service/dashboard_service.py:19-21 | counts trades with `open is True`: zero iff there are none, all iff every trade is |
| Dashboard.CountOpenSplit | service/dashboard_service.py:19-21 | the open-trade count is additive over concatenation, so with the one-trade case it counts exactly the `open is True` trades |
| Dashboard.CountMonitoring | service/dashboard_service.py:48 | counts accounts with `monitoring is True`: zero iff there are none, all iff every account is |
| Dashboard.CountMonitoringSplit | service/dashboard_service.py:48 | the monitoring count is additive over concatenation, so with the one-account case it counts exactly the `monitoring is True` accounts |
| Dashboard.ClosedToday | service/dashboard_service.py:28-30 | a trade with `open is False` whose `exit_time` is a non-empty string starting with today's date |
| Dashboard.ProfitOf | service/dashboard_service.py:28-38 | `(exit_price - entry_price) * qty` for a trade closed today whose three fields convert, else nothing |
| Dashboard.TodayProfit | service/dashboard_service.py:23-38 | the sum of what each trade adds |
| Dashboard.TodayProfitSplit | service/dashboard_service.py:27-38 | today's profit of two trade lists is the sum of their profits |
| Dashboard.TodayProfitIgnores | service/dashboard_service.py:27-30 | open trades and trades not closed today add nothing, wherever they stand |
| Dashboard.DailyChange | service/dashboard_service.py:40-45 | zero unless balance > 0 and balance - profit > 0; under those conditions change * (balance - profit) = profit * 100; positive iff the profit is positive under them |
| Dashboard.SumBalances | service/dashboard_service.py:10-16 | the balance loop computes the total of truthy numeric balances |
| Dashboard.SumTodayProfit | service/dashboard_service.py:23-38 | the profit loop fails iff a closed trade has a truthy non-string `exit_time`, and otherwise computes today's profit, skipping trades that do not convert |
| Dashboard.GetDashboardData | service/dashboard_service.py:4-56 | the result is the dashboard of the stored accounts and trades for that day; nothing is written, so repeated calls agree |
| Dashboard.DashboardOf | service/dashboard_service.py:4-56 | the five dashboard figures from the stored accounts and trades, or the error raised by a non-string `exit_time` |
| Bot.Hashable | services/bot_service.py:11 | a value `set()` accepts: anything but a list or a dict |
| Bot.ActiveSymbols | services/bot_service.py:10-11 | raises (None) iff some trade with a truthy `open` has a list or dict symbol; otherwise the set holds exactly the symbols of trades whose `open` is truthy |
| Bot.OpenTradesAreActive | services/bot_service.py:11 | every trade counted as open by the dashboard contributes its symbol to the active symbols |
| Bot.GetStatus | services/bot_service.py:3-18 | raises iff building the active symbols raises; otherwise reports the run flag, "Running" iff running, the fixed strategy and the active symbols; changes nothing |
| Bot.StartBot | services/bot_service.py:20-28 | when running: "info" and no call to `start`; otherwise one call to `start` and "success"; the bot runs afterwards |
| Bot.StopBot | services/bot_service.py:30-38 | when stopped: "info" and no call to `stop`; otherwise one call to `stop` and "success"; the bot is stopped afterwards |
| Bot.StartTwice | services/bot_service.py:20-28 | a second start in a row answers "info", and `start` ran at most once |
| Bot.StopTwice | services/bot_service.py:30-38 | a second stop in a row answers "info", and `stop` ran at most once |
| Hub.RemoveFirst | main.py:75-77 | removing an absent socket leaves the list unchanged; removing a present one shortens it by exactly one |
| Hub.RemoveFirstMultiset | main.py:77 | exactly one occurrence of the socket is removed, and nothing else |
| Hub.RemoveFirstAfter | main.py:77 | the occurrence removed is the first one: `p + [x] + q` with `x` not in `p` becomes `p + q` |
| Hub.Survivors | main.py:79-84 | the subscribers whose send succeeds, in order, never more than before |
| Hub.SurvivorsMembers | main.py:79-84 | a socket survives iff it was subscribed and its send does not fail |
| Hub.SurvivorsIdempotent | main.py:79-84 | a second broadcast with the same failures drops nobody more |
| Hub.ConnectionManager.constructor | main.py:68-69 | the hub starts with no subscribers and an empty send log |
| Hub.ConnectionManager.Connect | main.py:71-73 | the socket is appended at the end and nothing else changes |
| Hub.ConnectionManager.Disconnect | main.py:75-77 | the list loses the first occurrence of the socket, if any |
| Hub.ConnectionManager.Send | main.py:81-84 | one attempted send; a socket whose send raises is disconnected |
| Hub.ConnectionManager.Broadcast | main.py:79-84 | every subscriber of the snapshot gets exactly one attempt, in order; afterwards the list is the old one minus the failed sockets, survivors in order, with duplicates allowed; the message is logged next to the cache at the call, which must already hold its price |
| PricePolling.Accepted | main.py:132 | the condition `j.get("retCode") == 0 and j.get("result", {}).get("list")` holds without raising |
| PricePolling.FirstLastPrice | main.py:133 | `j["result"]["list"][0]["lastPrice"]`, present iff the list is a list whose first entry is a dict with that key |
| PricePolling.Fetched | main.py:130-133 | a price comes only from an accepted body whose first entry has a `lastPrice`; for such a body the price is exactly `float()` of that `lastPrice`, and None iff `float()` raises |
| PricePolling.CacheAfter | main.py:123-134 | the price cache after handling the symbols in order |
| PricePolling.Events | main.py:123-142 | the price events broadcast while handling the symbols in order |
| PricePolling.Attempts | main.py:137-142 | the sends of several broadcasts in a row: the first reaches every subscriber, each later one the survivors; the first round comes first |
| PricePolling.CacheAfterEntry | main.py:132-134 | a symbol has a cache entry after the pass iff it had one or was polled with a usable price; a polled usable price is stored; otherwise the old entry stays |
| PricePolling.CacheNeverShrinks | main.py:123-134 | cache entries are only overwritten, never removed |
| PricePolling.PerSymbolIsolation | main.py:123-145 | a symbol's entry depends only on its own response, so a failure for any other symbol cannot change it |
| PricePolling.EventsMatchCache | main.py:134-142 | every broadcast price event is for a polled symbol, carries the pass's timestamp, and matches the cache after the pass |
| PricePolling.PricePoller.constructor | main.py:62 | the price cache starts empty |
| PricePolling.PricePoller.HandleSymbol | main.py:124-145 | with a usable price, the price is stored, then one event is broadcast and logged with the updated cache, with one send attempt per live subscriber; otherwise the cache, the log, the subscribers and the sends are all unchanged; the log stays consistent, because `Broadcast` accepts only a cache that already holds the price |
| PricePolling.PricePoller.PollOnce | main.py:123-145 | the cache, the broadcast log, the subscribers and the attempted sends after a pass are the ones the per-symbol rule gives; every message in the log went out only after its price was in the cache |

## Left out

- FastAPI routing, templates, CORS, the page endpoints and `/api/test-write` (main.py:37-57, 91-104, 156-186) are presentation and file I/O.
- `websocket_endpoint` (main.py:106-113) is a `connect` followed by a `disconnect` when receiving fails. It is covered by those two methods and is not modelled as its own operation.
- `get_accounts` in all three account files only returns `bc.load_accounts()`. It is the `accounts` field itself.
- The `asyncio` loop, `sleep`, the outer `try`, task startup and `print` (main.py:118-151, 165-168) are left out. Only one pass over the symbols is modelled, with one timestamp `now` for the pass.
- `requests.get` and JSON decoding are the input `Response`: either an exception or the decoded body. `float()` on strings is the `parse` parameter.
- Hub.ConnectionManager.Broadcast and PricePolling.PricePoller.PollOnce: each broadcast is one uninterrupted step. In Python every `await ws.send_json(...)` (main.py:80-84) yields to the event loop, and meanwhile other `websocket_endpoint` coroutines (main.py:106-113) may `connect` or `disconnect` sockets. Those interleaved connects and disconnects are not modelled. The stated subscriber list after a broadcast or a pass therefore holds only when none happen during it.
- PricePolling.PricePoller.PollOnce: `fails` says per socket whether its send raises. It is fixed for the whole pass, whereas a real socket could fail on one send and succeed on the next.
- The file lock, file existence checks and creation, `os.makedirs`, `read_raw_file` and `debug_print` are left out. So is any interleaving between `test_account`'s unlocked read and its locked update: the model sees both as the same stored list.
- `app_state` is not part of this model. Its load, save, read, append, validate, start and stop operations are the fields and methods of `AppState.BotController`, and `validate_account` is an oracle.
- `uuid.uuid4()`, `time.strftime` and `datetime.utcnow()` are parameters: a fresh id, `now`, and `today`.
- The dashboard's `round(..., 2)` and floating-point effects are left out, including NaN and infinity. Arithmetic is on `real`.
- Dashboard.BalanceOf: a balance of `True` counts as 1 and `False` adds nothing, because Python's `isinstance(True, (int, float))` holds. This follows the code.
- History.GetTrades: reports a sort failure whenever two or more trades are selected and one of their keys (`entry_time or ""`) is not a string. Python raises only when its sort compares two keys that do not order, so it also sorts a selection whose keys are all numbers or all lists of comparable items. Which mixed selections raise depends on the pairs the sort compares, and is not modelled.
- History.GetTradesFails: has the same gap as History.GetTrades. It states a failure for two or more selected trades with a non-text key, including all-number or all-list keys that Python sorts.
- Strings.Lower: only ASCII letters are lower-cased. This is exact for matching "open" and "closed".
- Bot.GetStatus: `active_symbols` is a set, so the order of Python's list is not modelled. Hashable symbols are compared structurally, so Python's merging of `1`, `1.0` and `True` in a set is not modelled either.
- Bot.ActiveSymbols: has the same gap as Bot.GetStatus. Its set keeps `1`, `1.0` and `True` apart, while Python's set merges them.
- The in-place mutation of the caller's dict in `append_trade` and in the `add_account` of `services/accountsss_service.py` and `services/accountss_service.py` is not modelled as aliasing. The returned and stored record is the mutated one.

=== FILE: accounts.dfy ===
/**
 * The account records and how the three account services prepare them.
 * `services/accounts_service.py` rebuilds the incoming record from a fixed set
 * of keys; `services/accountsss_service.py` and `services/accountss_service.py`
 * keep the caller's record and fill in missing keys.
 */
module AccountRecords {
  import opened Values

  /** The fields a normalised account has, and no others. */
  const AccountKeys: set<string> := {"id", "name", "exchange", "api_key", "api_secret", "monitoring", "position"}

  /**
   * Field `k` of the normalised account: the id, or a fresh one when it is
   * falsy; the key under either spelling; the secret under any of three;
   * `monitoring` and `position` with their defaults; `name` and `exchange`
   * as given.
   */
  function NormalizedField(data: Record, freshId: string, k: string): Value
  {
    if k == "id" then Or(Get(data, "id"), VStr(freshId))
    else if k == "api_key" then Or(Get(data, "apiKey"), Get(data, "api_key"))
    else if k == "api_secret" then Or(Or(Get(data, "api_secret"), Get(data, "secretKey")), Get(data, "secret_key"))
    else if k == "monitoring" then GetOr(data, "monitoring", VBool(false))
    else if k == "position" then GetOr(data, "position", VStr("closed"))
    else Get(data, k)
  }

  /**
   * The normalised account of `accounts_service.add_account`.
   * `freshId` stands for `str(uuid.uuid4())`.
   */
  function Normalize(data: Record, freshId: string): (r: Record)
    ensures r.Keys == AccountKeys
    ensures Truthy(Get(data, "id")) ==> r["id"] == data["id"]
    ensures !Truthy(Get(data, "id")) ==> r["id"] == VStr(freshId)
    ensures r["name"] == Get(data, "name") && r["exchange"] == Get(data, "exchange")
    ensures "monitoring" !in data ==> r["monitoring"] == VBool(false)
    ensures "monitoring" in data ==> r["monitoring"] == data["monitoring"]
    ensures "position" !in data ==> r["position"] == VStr("closed")
    ensures "position" in data ==> r["position"] == data["position"]
  {
    map k | k in AccountKeys :: NormalizedField(data, freshId, k)
  }

  /**
   * The key is taken from `apiKey`, else `api_key`; the secret from
   * `api_secret`, else `secretKey`, else `secret_key`.
   */
  lemma NormalizeCredentials(data: Record, freshId: string)
    ensures var r := Normalize(data, freshId);
      && (Truthy(Get(data, "apiKey")) ==> r["api_key"] == data["apiKey"])
      && (!Truthy(Get(data, "apiKey")) ==> r["api_key"] == Get(data, "api_key"))
      && (Truthy(Get(data, "api_secret")) ==> r["api_secret"] == data["api_secret"])
      && (!Truthy(Get(data, "api_secret")) && Truthy(Get(data, "secretKey")) ==> r["api_secret"] == data["secretKey"])
      && (!Truthy(Get(data, "api_secret")) && !Truthy(Get(data, "secretKey")) ==> r["api_secret"] == Get(data, "secret_key"))
  {
  }

  /**
   * The record of `accountsss_service.add_account` and
   * `accountss_service.add_account`: the caller's record with `id`,
   * `monitoring` and `position` added where they are missing.
   */
  function WithDefaults(data: Record, freshId: string): (r: Record)
    ensures r.Keys == data.Keys + {"id", "monitoring", "position"}
    ensures forall k :: k in data ==> r[k] == data[k]
    ensures "id" !in data ==> r["id"] == VStr(freshId)
    ensures "monitoring" !in data ==> r["monitoring"] == VBool(false)
    ensures "position" !in data ==> r["position"] == VStr("closed")
  {
    var withId := if "id" in data then data else data["id" := VStr(freshId)];
    var withMonitoring := if "monitoring" in withId then withId else withId["monitoring" := VBool(false)];
    if "position" in withMonitoring then withMonitoring else withMonitoring["position" := VStr("closed")]
  }

  /**
   * In `accounts_service.add_account` the id check and the two `setdefault`
   * calls that follow the normalisation never change the record.
   */
  lemma DefaultsAfterNormalizeChangeNothing(data: Record, freshId: string, freshId': string)
    ensures WithDefaults(Normalize(data, freshId), freshId') == Normalize(data, freshId)
  {
    var n := Normalize(data, freshId);
    var w := WithDefaults(n, freshId');
    assert w.Keys == n.Keys;
  }

  /**
   * Normalising an already normalised account changes nothing, provided its
   * secret is truthy or None and its id is not an empty string:
   * a falsy secret other than None would become None, a falsy id a new id.
   */
  lemma NormalizeIsStable(data: Record, freshId: string, freshId': string)
    requires freshId != ""
    requires var s := Normalize(data, freshId)["api_secret"]; Truthy(s) || s == VNone
    ensures Normalize(Normalize(data, freshId), freshId') == Normalize(data, freshId)
  {
    var n := Normalize(data, freshId);
    var m := Normalize(n, freshId');
    assert Truthy(n["id"]);
    assert m.Keys == n.Keys;
    forall k | k in n
      ensures m[k] == n[k]
    {
    }
  }

  /** `[a for a in accounts if a.get("id") != account_id]`. */
  function WithoutId(s: seq<Record>, id: string): (r: seq<Record>)
    ensures forall a :: a in r <==> a in s && Get(a, "id") != VStr(id)
    ensures |r| <= |s|
    ensures |r| < |s| <==> exists a :: a in s && Get(a, "id") == VStr(id)
  {
    if s == [] then []
    else if Get(s[0], "id") == VStr(id) then WithoutId(s[1..], id)
    else
      assert s[0] in s;
      [s[0]] + WithoutId(s[1..], id)
  }

  /** The filter keeps every account with another id exactly as often as it occurs. */
  lemma {:induction false} WithoutIdCounts(s: seq<Record>, id: string, a: Record)
    ensures multiset(WithoutId(s, id))[a] == if Get(a, "id") == VStr(id) then 0 else multiset(s)[a]
  {
    if s != [] {
      WithoutIdCounts(s[1..], id, a);
      assert s == [s[0]] + s[1..];
    }
  }

  /**
   * Filtering distributes over concatenation, so the remaining accounts keep
   * their order: whatever stood before another account still does.
   */
  lemma {:induction false} WithoutIdConcat(a: seq<Record>, b: seq<Record>, id: string)
    ensures WithoutId(a + b, id) == WithoutId(a, id) + WithoutId(b, id)
  {
    if a == [] {
      assert a + b == b;
    } else {
      assert (a + b)[0] == a[0] && (a + b)[1..] == a[1..] + b;
      WithoutIdConcat(a[1..], b, id);
    }
  }

  /** Deleting an id twice is the same as deleting it once. */
  lemma {:induction false} WithoutIdIdempotent(s: seq<Record>, id: string)
    ensures WithoutId(WithoutId(s, id), id) == WithoutId(s, id)
  {
    if s != [] {
      WithoutIdIdempotent(s[1..], id);
      var rest := WithoutId(s[1..], id);
      if Get(s[0], "id") != VStr(id) {
        assert ([s[0]] + rest)[0] == s[0] && ([s[0]] + rest)[1..] == rest;
      }
    }
  }

  /** What a successful validation writes into an account. */
  function MarkValidated(a: Record, balance: Value): (r: Record)
    ensures r.Keys == a.Keys + {"validated", "balance", "last_validation_error"}
    ensures r["validated"] == VBool(true) && r["balance"] == balance && r["last_validation_error"] == VNone
    ensures forall k :: k in a && k !in {"validated", "balance", "last_validation_error"} ==> r[k] == a[k]
  {
    a["validated" := VBool(true)]["balance" := balance]["last_validation_error" := VNone]
  }
}

/**
 * The `with bc._file_lock:` blocks the three account services share.
 * `delete_account` and `test_account` are the same in all three files apart
 * from debug output; `add_account` differs only in how the record is prepared.
 */
module AccountStore {
  import opened Values
  import opened AppState
  import opened AccountRecords

  /** The re-read after saving did not find the new id. */
  datatype AddError = NotPersisted

  datatype DeleteStatus = Deleted | NotFound

  /** `{"status": ..., "id": account_id}` of `delete_account`. */
  datatype DeleteReply = DeleteReply(status: DeleteStatus, id: string)

  /** `test_account`'s reply: connection success with a balance, or failure with a reason. */
  datatype TestReply =
    | Connected(id: string, balance: Value)
    | ConnectionFailed(id: string, reason: Value)

  /**
   * The locked block of `add_account`: load, append, save, re-read, and
   * fail unless the re-read list contains the new id.
   */
  method AppendAndVerify(bc: BotController, rec: Record) returns (r: Result<Record, AddError>)
    requires "id" in rec
    modifies bc`accounts
    ensures bc.accounts == bc.Stored(old(bc.accounts), old(bc.accounts) + [rec])
    ensures r.Ok? <==> IdListed(bc.accounts, rec["id"])
    ensures r.Ok? ==> r.value == rec
    ensures !bc.dropsWrites ==> r.Ok?
    ensures DistinctIds(old(bc.accounts)) && !IdListed(old(bc.accounts), rec["id"]) ==> DistinctIds(bc.accounts)
    ensures !bc.dropsWrites && IdListed(old(bc.accounts), rec["id"]) ==> !DistinctIds(bc.accounts)
  {
    var before := bc.accounts;
    var accounts := before + [rec];
    bc.SaveAccounts(accounts);
    var after := bc.accounts;
    var found := false;
    var i := 0;
    while i < |after|
      invariant 0 <= i <= |after|
      invariant found <==> exists j :: 0 <= j < i && PyEq(Get(after[j], "id"), rec["id"])
    {
      if PyEq(Get(after[i], "id"), rec["id"]) {
        found := true;
      }
      i := i + 1;
    }
    VerificationOutcome(bc, before, rec);
    AppendDistinctIds(before, rec);
    if !found {
      return Err(NotPersisted);
    }
    return Ok(rec);
  }

  /**
   * After a save that was kept, the re-read always finds the new id, so the
   * check can fail only when the medium dropped the write; and a dropped write
   * is caught only when no stored account already had an equal id.
   */
  lemma VerificationOutcome(bc: BotController, prev: seq<Record>, rec: Record)
    requires "id" in rec
    ensures !bc.dropsWrites ==> IdListed(bc.Stored(prev, prev + [rec]), rec["id"])
    ensures bc.dropsWrites ==> (IdListed(bc.Stored(prev, prev + [rec]), rec["id"]) <==> IdListed(prev, rec["id"]))
  {
    PyEqReflexive(rec["id"]);
    assert rec in prev + [rec];
  }

  /** `delete_account(account_id)`: removes every account with that id; saves only if one was removed. */
  method DeleteAccount(bc: BotController, accountId: string) returns (r: DeleteReply)
    modifies bc`accounts
    ensures r.id == accountId
    ensures r.status == Deleted <==> exists a :: a in old(bc.accounts) && Get(a, "id") == VStr(accountId)
    ensures r.status == Deleted ==> bc.accounts == bc.Stored(old(bc.accounts), WithoutId(old(bc.accounts), accountId))
    ensures r.status == NotFound ==> bc.accounts == old(bc.accounts)
  {
    var accounts := bc.accounts;
    var initialLen := |accounts|;
    accounts := WithoutId(accounts, accountId);
    if |accounts| < initialLen {
      bc.SaveAccounts(accounts);
      return DeleteReply(Deleted, accountId);
    }
    return DeleteReply(NotFound, accountId);
  }

  /** The account list after the first account at position `i` is marked validated. */
  function ValidatedAt(s: seq<Record>, i: nat, balance: Value): (r: seq<Record>)
    requires i < |s|
    ensures |r| == |s| && r[i] == MarkValidated(s[i], balance)
    ensures forall j :: 0 <= j < |s| && j != i ==> r[j] == s[j]
  {
    s[i := MarkValidated(s[i], balance)]
  }

  /**
   * `test_account(account_id)`: look the account up, validate it, and on
   * success write the result into the first account with that id.
   */
  method TestAccount(bc: BotController, accountId: string) returns (r: TestReply)
    modifies bc`accounts
    ensures r.id == accountId
    ensures FirstWithId(old(bc.accounts), accountId).None? ==>
      r == ConnectionFailed(accountId, VStr("Account not found")) && bc.accounts == old(bc.accounts)
    ensures FirstWithId(old(bc.accounts), accountId).Some? ==>
      var i := FirstWithId(old(bc.accounts), accountId).value;
      var v := bc.validator(old(bc.accounts)[i]);
      if v.ok then
        r == Connected(accountId, v.balance)
        && bc.accounts == bc.Stored(old(bc.accounts), ValidatedAt(old(bc.accounts), i, v.balance))
      else
        r == ConnectionFailed(accountId, v.err) && bc.accounts == old(bc.accounts)
  {
    var accounts := bc.accounts;
    var found := FirstWithId(accounts, accountId);
    if found.None? {
      return ConnectionFailed(accountId, VStr("Account not found"));
    }
    var account := accounts[found.value];
    var v := bc.validator(account);
    if !v.ok {
      return ConnectionFailed(accountId, v.err);
    }
    var all := bc.accounts;
    var i := 0;
    while i < |all|
      invariant 0 <= i <= found.value
      invariant all == accounts
    {
      if Get(all[i], "id") == VStr(accountId) {
        all := all[i := MarkValidated(all[i], v.balance)];
        break;
      }
      i := i + 1;
    }
    bc.SaveAccounts(all);
    return Connected(accountId, v.balance);
  }
}

/** `services/accounts_service.py`: adding an account normalises its keys first. */
module AccountsService {
  import opened Values
  import opened AppState
  import opened AccountRecords
  import opened AccountStore

  /** `add_account(data)`; `freshId` stands for the generated uuid. */
  method AddAccount(bc: BotController, data: Record, freshId: string) returns (r: Result<Record, AddError>)
    modifies bc`accounts
    ensures var rec := Normalize(data, freshId);
      && bc.accounts == bc.Stored(old(bc.accounts), old(bc.accounts) + [rec])
      && (r.Ok? <==> IdListed(bc.accounts, rec["id"]))
      && (r.Ok? ==> r.value == rec)
  {
    var rec := Normalize(data, freshId);
    r := AppendAndVerify(bc, rec);
  }

  /**
   * Nothing checks the incoming id against the stored ones: a truthy id from
   * the caller is kept as given, so one that is already stored is stored a
   * second time, while a generated id keeps the ids unique as long as it is
   * not already stored.
   */
  lemma AddAccountIds(prev: seq<Record>, data: Record, freshId: string)
    ensures Truthy(Get(data, "id")) && IdListed(prev, data["id"]) ==>
      !DistinctIds(prev + [Normalize(data, freshId)])
    ensures !Truthy(Get(data, "id")) ==>
      (DistinctIds(prev + [Normalize(data, freshId)]) <==> DistinctIds(prev) && !IdListed(prev, VStr(freshId)))
  {
    var rec := Normalize(data, freshId);
    AppendDistinctIds(prev, rec);
    if Truthy(Get(data, "id")) && IdListed(prev, data["id"]) {
      AppendListedIdDuplicates(prev, rec);
    }
  }
}

/**
 * `services/accountsss_service.py` and `services/accountss_service.py`:
 * adding an account keeps the caller's record and fills in missing keys.
 */
module DefaultingAccountsService {
  import opened Values
  import opened AppState
  import opened AccountRecords
  import opened AccountStore

  /** `add_account(data)`; `freshId` stands for the generated uuid. */
  method AddAccount(bc: BotController, data: Record, freshId: string) returns (r: Result<Record, AddError>)
    modifies bc`accounts
    ensures var rec := WithDefaults(data, freshId);
      && bc.accounts == bc.Stored(old(bc.accounts), old(bc.accounts) + [rec])
      && (r.Ok? <==> IdListed(bc.accounts, rec["id"]))
      && (r.Ok? ==> r.value == rec)
  {
    var rec := WithDefaults(data, freshId);
    r := AppendAndVerify(bc, rec);
  }

  /**
   * Any id the caller's record carries is kept, even a falsy one, so an id
   * that is already stored is stored a second time; only a record without
   * an id gets the generated one.
   */
  lemma AddAccountIds(prev: seq<Record>, data: Record, freshId: string)
    ensures "id" in data && IdListed(prev, data["id"]) ==> !DistinctIds(prev + [WithDefaults(data, freshId)])
    ensures "id" !in data ==>
      (DistinctIds(prev + [WithDefaults(data, freshId)]) <==> DistinctIds(prev) && !IdListed(prev, VStr(freshId)))
  {
    var rec := WithDefaults(data, freshId);
    AppendDistinctIds(prev, rec);
    if "id" in data && IdListed(prev, data["id"]) {
      AppendListedIdDuplicates(prev, rec);
    }
  }
}

=== FILE: app_state.dfy ===
/**
 * The shared bot controller `bc` that every service uses.  Its own code is not
 * part of this model; what the services rely on is kept: the stored account
 * and trade lists, the run flag, the account validator, and the load/save
 * primitives.  Each `with bc._file_lock:` block of a service is one method
 * here, so the lock itself does not appear.
 */
module AppState {
  import opened Values

  /** What `bc.validate_account(account)` returns: `(ok, balance, err)`. */
  datatype Validation = Validation(ok: bool, balance: Value, err: Value)

  class BotController {
    /** The persisted account list (`load_accounts` / `save_accounts`). */
    var accounts: seq<Record>
    /** The persisted trade journal (`_read_trades` / `add_trade`). */
    var trades: seq<Record>
    /** The global run flag (`is_running`). */
    var running: bool
    /** How many times `start` and `stop` have been called. */
    ghost var startCalls: nat
    ghost var stopCalls: nat

    /** The exchange connectivity check behind `validate_account`. */
    const validator: Record -> Validation
    /**
     * Whether the backing medium silently discards account saves; the
     * services re-read after saving to detect exactly this.
     */
    const dropsWrites: bool

    constructor (validator: Record -> Validation, dropsWrites: bool)
      ensures accounts == [] && trades == [] && !running
      ensures startCalls == 0 && stopCalls == 0
      ensures this.validator == validator && this.dropsWrites == dropsWrites
    {
      this.validator := validator;
      this.dropsWrites := dropsWrites;
      accounts := [];
      trades := [];
      running := false;
      startCalls := 0;
      stopCalls := 0;
    }

    /** The account list a save of `next` over `prev` leaves behind. */
    function Stored(prev: seq<Record>, next: seq<Record>): seq<Record>
    {
      if dropsWrites then prev else next
    }

    /** `save_accounts(s)`: replaces the stored list, unless the medium drops the write. */
    method SaveAccounts(s: seq<Record>)
      modifies this`accounts
      ensures accounts == Stored(old(accounts), s)
    {
      if !dropsWrites {
        accounts := s;
      }
    }

    /** `add_trade(t)`: appends one record to the journal. */
    method AddTrade(t: Record)
      modifies this`trades
      ensures trades == old(trades) + [t]
    {
      trades := trades + [t];
    }

    /** `start()`: sets the run flag. */
    method Start()
      modifies this`running, this`startCalls
      ensures running && startCalls == old(startCalls) + 1
    {
      running := true;
      startCalls := startCalls + 1;
    }

    /** `stop()`: clears the run flag. */
    method Stop()
      modifies this`running, this`stopCalls
      ensures !running && stopCalls == old(stopCalls) + 1
    {
      running := false;
      stopCalls := stopCalls + 1;
    }
  }
}

=== FILE: bot.dfy ===
/**
 * The bot run-state service: a status query and idempotent start/stop
 * transitions over the controller's single global run flag.
 */
module Bot {
  import opened Values
  import opened AppState

  /** `{"running", "active_symbols", "strategy", "uptime"}` of `get_status`. */
  datatype BotStatus = BotStatus(running: bool, activeSymbols: set<Value>, strategy: string, uptime: string)

  /** `{"status", "message"}` of `start_bot` and `stop_bot`. */
  datatype BotReply = BotReply(status: string, message: string)

  /** Whether Python can put `v` into a set: lists and dicts are unhashable. */
  predicate Hashable(v: Value)
  {
    !v.VList? && !v.VDict?
  }

  /**
   * `set(t.get("symbol") for t in trades if t.get("open"))`; None when the
   * symbol of an open trade is unhashable and `set` raises TypeError.
   */
  function ActiveSymbols(ts: seq<Record>): (r: Option<set<Value>>)
    ensures r.None? <==> exists i :: 0 <= i < |ts| && Truthy(Get(ts[i], "open")) && !Hashable(Get(ts[i], "symbol"))
    ensures r.Some? ==> forall v :: v in r.value <==>
      exists i :: 0 <= i < |ts| && Truthy(Get(ts[i], "open")) && Get(ts[i], "symbol") == v
  {
    if ts == [] then Some({})
    else
      assert forall k :: 0 <= k < |ts[1..]| ==> ts[1..][k] == ts[k + 1];
      var sym := Get(ts[0], "symbol");
      if Truthy(Get(ts[0], "open")) && !Hashable(sym) then None
      else match ActiveSymbols(ts[1..])
        case None => None
        case Some(rest) => Some((if Truthy(Get(ts[0], "open")) then {sym} else {}) + rest)
  }

  /**
   * Every trade the dashboard counts as open (`open is True`) contributes its
   * symbol here, since True is truthy; the converse fails for truthy
   * non-boolean flags.
   */
  lemma OpenTradesAreActive(ts: seq<Record>, i: nat)
    requires i < |ts| && Get(ts[i], "open") == VBool(true)
    requires ActiveSymbols(ts).Some?
    ensures Get(ts[i], "symbol") in ActiveSymbols(ts).value
  {
  }

  /**
   * `get_status()`: reads the run flag and the journal and changes nothing;
   * None when building the set of active symbols raises.
   */
  method GetStatus(bc: BotController) returns (r: Option<BotStatus>)
    ensures r.None? <==> ActiveSymbols(bc.trades).None?
    ensures r.Some? ==> r.value.running == bc.running
    ensures r.Some? ==> r.value.uptime == if bc.running then "Running" else "Stopped"
    ensures r.Some? ==> r.value.strategy == "Fibonacci Scoring"
    ensures r.Some? ==> r.value.activeSymbols == ActiveSymbols(bc.trades).value
  {
    var running := bc.running;
    var trades := bc.trades;
    var symbols := ActiveSymbols(trades);
    if symbols.None? {
      return None;
    }
    r := Some(BotStatus(running, symbols.value, "Fibonacci Scoring", if running then "Running" else "Stopped"));
  }

  /** `start_bot()`: a no-op reply when already running, otherwise one call to `bc.start()`. */
  method StartBot(bc: BotController) returns (r: BotReply)
    modifies bc`running, bc`startCalls
    ensures old(bc.running) ==>
      r == BotReply("info", "Bot is already running") && bc.running && bc.startCalls == old(bc.startCalls)
    ensures !old(bc.running) ==>
      r == BotReply("success", "Bot started successfully") && bc.running && bc.startCalls == old(bc.startCalls) + 1
  {
    if bc.running {
      return BotReply("info", "Bot is already running");
    }
    bc.Start();
    return BotReply("success", "Bot started successfully");
  }

  /** `stop_bot()`: a no-op reply when already stopped, otherwise one call to `bc.stop()`. */
  method StopBot(bc: BotController) returns (r: BotReply)
    modifies bc`running, bc`stopCalls
    ensures !old(bc.running) ==>
      r == BotReply("info", "Bot is already stopped") && !bc.running && bc.stopCalls == old(bc.stopCalls)
    ensures old(bc.running) ==>
      r == BotReply("success", "Bot stopped successfully") && !bc.running && bc.stopCalls == old(bc.stopCalls) + 1
  {
    if !bc.running {
      return BotReply("info", "Bot is already stopped");
    }
    bc.Stop();
    return BotReply("success", "Bot stopped successfully");
  }

  /** Two starts in a row: the second is an "info" no-op and `bc.start()` ran at most once. */
  method StartTwice(bc: BotController) returns (first: BotReply, second: BotReply)
    modifies bc`running, bc`startCalls
    ensures second == BotReply("info", "Bot is already running")
    ensures bc.running && bc.startCalls <= old(bc.startCalls) + 1
  {
    first := StartBot(bc);
    second := StartBot(bc);
  }

  /** Two stops in a row: the second is an "info" no-op and `bc.stop()` ran at most once. */
  method StopTwice(bc: BotController) returns (first: BotReply, second: BotReply)
    modifies bc`running, bc`stopCalls
    ensures second == BotReply("info", "Bot is already stopped")
    ensures !bc.running && bc.stopCalls <= old(bc.stopCalls) + 1
  {
    first := StopBot(bc);
    second := StopBot(bc);
  }
}

=== FILE: dashboard.dfy ===
/**
 * The dashboard aggregation: total balance, open-trade count, today's profit,
 * the daily change ratio and the number of monitored accounts, recomputed
 * from the stored accounts and trades on every call.  Numbers are `real`;
 * the final rounding to two decimals is not modelled.
 */
module Dashboard {
  import opened Values
  import opened AppState

  /** What one account adds to the balance: `bal` if it is a truthy number, else nothing. */
  function BalanceOf(acc: Record): real
  {
    var bal := Get(acc, "balance");
    if Truthy(bal) && IsNumber(bal) then NumberOf(bal) else 0.0
  }

  /** The sum of the accounts' balances, accumulated in list order. */
  function TotalBalance(accs: seq<Record>): real
  {
    if accs == [] then 0.0 else TotalBalance(accs[..|accs| - 1]) + BalanceOf(accs[|accs| - 1])
  }

  /** The total of two account lists is the sum of their totals. */
  lemma {:induction false} TotalBalanceSplit(a: seq<Record>, b: seq<Record>)
    ensures TotalBalance(a + b) == TotalBalance(a) + TotalBalance(b)
  {
    if b != [] {
      TotalBalanceSplit(a, b[..|b| - 1]);
      assert (a + b)[..|a + b| - 1] == a + b[..|b| - 1];
    } else {
      assert a + b == a;
    }
  }

  /** Accounts without a truthy numeric balance add nothing, wherever they stand. */
  lemma TotalBalanceIgnores(a: seq<Record>, acc: Record, b: seq<Record>)
    requires !(Truthy(Get(acc, "balance")) && IsNumber(Get(acc, "balance")))
    ensures TotalBalance(a + [acc] + b) == TotalBalance(a + b)
  {
    TotalBalanceSplit(a + [acc], b);
    TotalBalanceSplit(a, [acc]);
    TotalBalanceSplit(a, b);
    assert TotalBalance([acc]) == TotalBalance([]) + BalanceOf(acc);
  }

  /** Counts the trades whose `open` is exactly True (`t.get("open") is True`). */
  function CountOpen(ts: seq<Record>): (n: nat)
    ensures n <= |ts|
    ensures n == 0 <==> forall t :: t in ts ==> Get(t, "open") != VBool(true)
    ensures n == |ts| <==> forall t :: t in ts ==> Get(t, "open") == VBool(true)
  {
    if ts == [] then 0
    else
      assert ts[0] in ts;
      assert forall t :: t in ts[1..] ==> t in ts;
      assert forall t :: t in ts ==> t == ts[0] || t in ts[1..];
      (if Get(ts[0], "open") == VBool(true) then 1 else 0) + CountOpen(ts[1..])
  }

  /** Counts the accounts whose `monitoring` is exactly True. */
  function CountMonitoring(accs: seq<Record>): (n: nat)
    ensures n <= |accs|
    ensures n == 0 <==> forall a :: a in accs ==> Get(a, "monitoring") != VBool(true)
    ensures n == |accs| <==> forall a :: a in accs ==> Get(a, "monitoring") == VBool(true)
  {
    if accs == [] then 0
    else
      assert accs[0] in accs;
      assert forall a :: a in accs[1..] ==> a in accs;
      assert forall a :: a in accs ==> a == accs[0] || a in accs[1..];
      (if Get(accs[0], "monitoring") == VBool(true) then 1 else 0) + CountMonitoring(accs[1..])
  }

  /** The open-trade count of two lists is the sum of their counts, so each `open is True` trade adds exactly one. */
  lemma {:induction false} CountOpenSplit(a: seq<Record>, b: seq<Record>)
    ensures CountOpen(a + b) == CountOpen(a) + CountOpen(b)
  {
    if a != [] {
      assert (a + b)[1..] == a[1..] + b;
      CountOpenSplit(a[1..], b);
    } else {
      assert a + b == b;
    }
  }

  /** The monitoring count of two lists is the sum of their counts. */
  lemma {:induction false} CountMonitoringSplit(a: seq<Record>, b: seq<Record>)
    ensures CountMonitoring(a + b) == CountMonitoring(a) + CountMonitoring(b)
  {
    if a != [] {
      assert (a + b)[1..] == a[1..] + b;
      CountMonitoringSplit(a[1..], b);
    } else {
      assert a + b == b;
    }
  }

  /** A closed trade whose `exit_time` is truthy but not a string: `.startswith` raises. */
  predicate ExitTimeFaults(t: Record)
  {
    Get(t, "open") == VBool(false) && Truthy(Get(t, "exit_time")) && !Get(t, "exit_time").VStr?
  }

  /** A trade that is closed (`open is False`) and whose `exit_time` starts with `today`. */
  predicate ClosedToday(t: Record, today: string)
  {
    var exit := Get(t, "exit_time");
    Get(t, "open") == VBool(false) && exit.VStr? && exit.s != "" && today <= exit.s
  }

  /**
   * What one trade adds to today's profit: `(exit_price - entry_price) * qty`
   * for a trade closed today whose three fields convert with `float()`, else nothing.
   */
  function ProfitOf(t: Record, today: string, parse: string -> Option<real>): real
  {
    if ClosedToday(t, today) then
      var entry := ToFloat(GetOr(t, "entry_price", VInt(0)), parse);
      var exit := ToFloat(GetOr(t, "exit_price", VInt(0)), parse);
      var qty := ToFloat(GetOr(t, "qty", VInt(0)), parse);
      if entry.Some? && exit.Some? && qty.Some? then (exit.value - entry.value) * qty.value else 0.0
    else 0.0
  }

  /** Today's profit, accumulated in journal order. */
  function TodayProfit(ts: seq<Record>, today: string, parse: string -> Option<real>): real
  {
    if ts == [] then 0.0 else TodayProfit(ts[..|ts| - 1], today, parse) + ProfitOf(ts[|ts| - 1], today, parse)
  }

  lemma {:induction false} TodayProfitSplit(a: seq<Record>, b: seq<Record>, today: string, parse: string -> Option<real>)
    ensures TodayProfit(a + b, today, parse) == TodayProfit(a, today, parse) + TodayProfit(b, today, parse)
  {
    if b != [] {
      TodayProfitSplit(a, b[..|b| - 1], today, parse);
      assert (a + b)[..|a + b| - 1] == a + b[..|b| - 1];
    } else {
      assert a + b == a;
    }
  }

  /** One more trade adds its own profit. */
  lemma TodayProfitStep(ts: seq<Record>, j: nat, today: string, parse: string -> Option<real>)
    requires j < |ts|
    ensures TodayProfit(ts[..j + 1], today, parse) == TodayProfit(ts[..j], today, parse) + ProfitOf(ts[j], today, parse)
  {
    assert ts[..j + 1][..j] == ts[..j];
  }

  /** Open trades and trades not closed today add nothing to today's profit, wherever they stand. */
  lemma TodayProfitIgnores(a: seq<Record>, t: Record, b: seq<Record>, today: string, parse: string -> Option<real>)
    requires !ClosedToday(t, today)
    ensures TodayProfit(a + [t] + b, today, parse) == TodayProfit(a + b, today, parse)
  {
    TodayProfitSplit(a + [t], b, today, parse);
    TodayProfitSplit(a, [t], today, parse);
    TodayProfitSplit(a, b, today, parse);
    assert TodayProfit([t], today, parse) == TodayProfit([], today, parse) + ProfitOf(t, today, parse);
  }

  /** The daily change in percent, relative to the balance before today's profit. */
  function DailyChange(balance: real, profit: real): (r: real)
    ensures r != 0.0 ==> balance > 0.0 && balance - profit > 0.0 && profit != 0.0
    ensures balance > 0.0 && balance - profit > 0.0 ==> r * (balance - profit) == profit * 100.0
    ensures r > 0.0 <==> balance > 0.0 && balance - profit > 0.0 && profit > 0.0
  {
    if balance > 0.0 && balance - profit > 0.0 then profit / (balance - profit) * 100.0 else 0.0
  }

  /** The five dashboard figures. */
  datatype DashboardData = DashboardData(profit: real, openTrades: nat, balance: real, dailyChange: real, activeBots: nat)

  /** The aggregation raised: a closed trade's `exit_time` was truthy but not a string. */
  datatype DashboardError = ExitTimeNotText

  /** The dashboard of the given accounts and trades on the day `today`. */
  function DashboardOf(accs: seq<Record>, ts: seq<Record>, today: string, parse: string -> Option<real>)
    : Result<DashboardData, DashboardError>
  {
    if exists t :: t in ts && ExitTimeFaults(t) then Err(ExitTimeNotText)
    else
      var balance := TotalBalance(accs);
      var profit := TodayProfit(ts, today, parse);
      Ok(DashboardData(profit, CountOpen(ts), balance, DailyChange(balance, profit), CountMonitoring(accs)))
  }

  /** Step 1 of `get_dashboard_data`: the balance loop. */
  method SumBalances(accounts: seq<Record>) returns (totalBalance: real)
    ensures totalBalance == TotalBalance(accounts)
  {
    totalBalance := 0.0;
    var i := 0;
    while i < |accounts|
      invariant 0 <= i <= |accounts|
      invariant totalBalance == TotalBalance(accounts[..i])
    {
      var bal := Get(accounts[i], "balance");
      if Truthy(bal) && IsNumber(bal) {
        totalBalance := totalBalance + NumberOf(bal);
      }
      assert accounts[..i + 1][..i] == accounts[..i];
      i := i + 1;
    }
    assert accounts[..i] == accounts;
  }

  /**
   * Step 3 of `get_dashboard_data`: the profit loop.  A trade whose numbers do
   * not convert is skipped; a closed trade with a truthy non-string
   * `exit_time` aborts the whole call.
   */
  method SumTodayProfit(trades: seq<Record>, today: string, parse: string -> Option<real>)
    returns (r: Result<real, DashboardError>)
    ensures r.Err? <==> exists t :: t in trades && ExitTimeFaults(t)
    ensures r.Ok? ==> r.value == TodayProfit(trades, today, parse)
  {
    var todayPnl := 0.0;
    var j := 0;
    while j < |trades|
      invariant 0 <= j <= |trades|
      invariant todayPnl == TodayProfit(trades[..j], today, parse)
      invariant forall k :: 0 <= k < j ==> !ExitTimeFaults(trades[k])
    {
      var t := trades[j];
      if Get(t, "open") == VBool(false) {
        var exitTime := Get(t, "exit_time");
        if Truthy(exitTime) && !exitTime.VStr? {
          assert t in trades && ExitTimeFaults(t);
          return Err(ExitTimeNotText);
        }
        if Truthy(exitTime) && today <= exitTime.s {
          var entry := ToFloat(GetOr(t, "entry_price", VInt(0)), parse);
          var exitPrice := ToFloat(GetOr(t, "exit_price", VInt(0)), parse);
          var qty := ToFloat(GetOr(t, "qty", VInt(0)), parse);
          if entry.Some? && exitPrice.Some? && qty.Some? {
            todayPnl := todayPnl + (exitPrice.value - entry.value) * qty.value;
          }
        }
      }
      TodayProfitStep(trades, j, today, parse);
      j := j + 1;
    }
    assert trades[..j] == trades;
    return Ok(todayPnl);
  }

  /**
   * `get_dashboard_data()`, where `today` is the current UTC date as
   * "YYYY-MM-DD" and `parse` is float() on strings.  It only reads the store,
   * so two calls on the same store and day give the same figures.
   */
  method GetDashboardData(bc: BotController, today: string, parse: string -> Option<real>)
    returns (r: Result<DashboardData, DashboardError>)
    ensures r == DashboardOf(bc.accounts, bc.trades, today, parse)
  {
    var accounts := bc.accounts;
    var totalBalance := SumBalances(accounts);

    var trades := bc.trades;
    var openTrades := CountOpen(trades);

    var profit := SumTodayProfit(trades, today, parse);
    if profit.Err? {
      return Err(ExitTimeNotText);
    }
    var todayPnl := profit.value;

    var dailyChange := 0.0;
    if totalBalance > 0.0 {
      var startBalance := totalBalance - todayPnl;
      if startBalance > 0.0 {
        dailyChange := todayPnl / startBalance * 100.0;
      }
    }

    var activeBots := CountMonitoring(accounts);
    return Ok(DashboardData(todayPnl, openTrades, totalBalance, dailyChange, activeBots));
  }
}

=== FILE: history.dfy ===
/**
 * The trade ledger query layer: filter the journal by symbol and by
 * open/closed status, order it newest first on `entry_time`, and cut one page
 * out of it; look a trade up by id; append a trade with defaults filled in.
 */
module History {
  import opened Values
  import Strings
  import opened AppState

  // ---------------------------------------------------------------------------
  // Filtering
  // ---------------------------------------------------------------------------

  /** One filter of the query: an exact symbol, or an exact `open` flag. */
  datatype Criterion = SymbolIs(symbol: string) | OpenIs(flag: bool)

  /** `t.get("symbol") == symbol`, resp. `t.get("open") is flag`. */
  predicate Holds(c: Criterion, t: Record)
  {
    match c
    case SymbolIs(s) => Get(t, "symbol") == VStr(s)
    case OpenIs(f) => Get(t, "open") == VBool(f)
  }

  /** The list comprehension `[t for t in ts if <c holds of t>]`. */
  function Where(ts: seq<Record>, c: Criterion): (r: seq<Record>)
    ensures |r| <= |ts|
    ensures forall t :: t in r <==> t in ts && Holds(c, t)
  {
    if ts == [] then [] else (if Holds(c, ts[0]) then [ts[0]] else []) + Where(ts[1..], c)
  }

  /**
   * The status filter: "open" and "closed" in any letter case select on the
   * `open` flag; no status, the empty status and every other word select nothing.
   */
  function StatusCriterion(status: Option<string>): (r: Option<Criterion>)
    ensures r == Some(OpenIs(true)) <==> status.Some? && Strings.EqualsIgnoringCase(status.value, "open")
    ensures r == Some(OpenIs(false)) <==> status.Some? && Strings.EqualsIgnoringCase(status.value, "closed")
    ensures r.Some? ==> r.value.OpenIs?
  {
    if status.None? || status.value == "" then None
    else
      Strings.LowerMatches(status.value, "open");
      Strings.LowerMatches(status.value, "closed");
      if Strings.Lower(status.value) == "open" then Some(OpenIs(true))
      else if Strings.Lower(status.value) == "closed" then Some(OpenIs(false))
      else None
  }

  /** The trades `get_trades` keeps before sorting, in journal order. */
  function Select(ts: seq<Record>, symbol: Option<string>, status: Option<string>): seq<Record>
  {
    var bySymbol := if symbol.Some? && symbol.value != "" then Where(ts, SymbolIs(symbol.value)) else ts;
    match StatusCriterion(status)
    case None => bySymbol
    case Some(c) => Where(bySymbol, c)
  }

  /** Whether one trade passes the query's filters, judged on its own. */
  predicate Matches(t: Record, symbol: Option<string>, status: Option<string>)
  {
    && (symbol.Some? && symbol.value != "" ==> Get(t, "symbol") == VStr(symbol.value))
    && (status.Some? && Strings.EqualsIgnoringCase(status.value, "open") ==> Get(t, "open") == VBool(true))
    && (status.Some? && Strings.EqualsIgnoringCase(status.value, "closed") ==> Get(t, "open") == VBool(false))
  }

  /** The number of journal entries that pass the filters, counted one by one. */
  function CountMatching(ts: seq<Record>, symbol: Option<string>, status: Option<string>): nat
  {
    if ts == [] then 0
    else (if Matches(ts[0], symbol, status) then 1 else 0) + CountMatching(ts[1..], symbol, status)
  }

  lemma WhereCons(t: Record, rest: seq<Record>, c: Criterion)
    ensures Where([t] + rest, c) == (if Holds(c, t) then [t] else []) + Where(rest, c)
  {
    assert ([t] + rest)[0] == t && ([t] + rest)[1..] == rest;
  }

  /** Selecting from a journal keeps its first trade exactly when that trade matches. */
  lemma SelectCons(t: Record, rest: seq<Record>, symbol: Option<string>, status: Option<string>)
    ensures Select([t] + rest, symbol, status)
         == (if Matches(t, symbol, status) then [t] else []) + Select(rest, symbol, status)
  {
    var bySymbol := if symbol.Some? && symbol.value != "" then Where(rest, SymbolIs(symbol.value)) else rest;
    var keep := !(symbol.Some? && symbol.value != "") || Holds(SymbolIs(symbol.value), t);
    var head: seq<Record> := if keep then [t] else [];
    assert (if symbol.Some? && symbol.value != "" then Where([t] + rest, SymbolIs(symbol.value)) else [t] + rest)
        == head + bySymbol by {
      if symbol.Some? && symbol.value != "" {
        WhereCons(t, rest, SymbolIs(symbol.value));
      }
    }
    var c := StatusCriterion(status);
    if c.Some? {
      if keep {
        WhereCons(t, bySymbol, c.value);
      } else {
        assert head + bySymbol == bySymbol;
      }
    }
  }

  /**
   * The selection is the journal with every non-matching trade removed:
   * each matching trade keeps its multiplicity, nothing else is present.
   */
  lemma {:induction false} SelectCounts(ts: seq<Record>, symbol: Option<string>, status: Option<string>, t: Record)
    ensures multiset(Select(ts, symbol, status))[t] == if Matches(t, symbol, status) then multiset(ts)[t] else 0
    ensures t in Select(ts, symbol, status) <==> t in ts && Matches(t, symbol, status)
  {
    if ts != [] {
      SelectCons(ts[0], ts[1..], symbol, status);
      SelectCounts(ts[1..], symbol, status, t);
      assert ts == [ts[0]] + ts[1..];
    }
    assert t in Select(ts, symbol, status) <==> multiset(Select(ts, symbol, status))[t] > 0;
    assert t in ts <==> multiset(ts)[t] > 0;
  }

  /** The selection holds exactly as many trades as pass the filters. */
  lemma {:induction false} SelectSize(ts: seq<Record>, symbol: Option<string>, status: Option<string>)
    ensures |Select(ts, symbol, status)| == CountMatching(ts, symbol, status)
  {
    if ts != [] {
      SelectCons(ts[0], ts[1..], symbol, status);
      SelectSize(ts[1..], symbol, status);
      assert ts == [ts[0]] + ts[1..];
    }
  }

  // ---------------------------------------------------------------------------
  // Sorting newest first
  // ---------------------------------------------------------------------------

  /** The sort key `t.get("entry_time") or ""` is a string (or falls back to ""). */
  predicate KeyIsText(t: Record)
  {
    var v := Get(t, "entry_time");
    !Truthy(v) || v.VStr?
  }

  /** The sort key of a trade whose key is text. */
  function EntryKey(t: Record): string
  {
    var v := Get(t, "entry_time");
    if v.VStr? then v.s else ""
  }

  /** Non-increasing in `entry_time`, compared as Python compares strings. */
  predicate NewestFirst(s: seq<Record>)
  {
    forall i, j :: 0 <= i < j < |s| ==> !Strings.Less(EntryKey(s[i]), EntryKey(s[j]))
  }

  /** Places `x` in front of every trade whose key is not strictly newer. */
  function Insert(x: Record, r: seq<Record>): (res: seq<Record>)
    ensures |res| == |r| + 1
  {
    if r != [] && Strings.Less(EntryKey(x), EntryKey(r[0])) then
      [r[0]] + Insert(x, r[1..])
    else
      [x] + r
  }

  /** `list.sort(key=..., reverse=True)`: a stable sort, newest first. */
  function SortNewestFirst(s: seq<Record>): (r: seq<Record>)
    ensures |r| == |s|
  {
    if s == [] then [] else Insert(s[0], SortNewestFirst(s[1..]))
  }

  /** Inserting adds `x` and loses nothing. */
  lemma {:induction false} InsertCounts(x: Record, r: seq<Record>)
    ensures multiset(Insert(x, r)) == multiset(r) + multiset{x}
  {
    if r != [] && Strings.Less(EntryKey(x), EntryKey(r[0])) {
      InsertCounts(x, r[1..]);
      assert r == [r[0]] + r[1..];
    }
  }

  /** The sort is a permutation of its input. */
  lemma {:induction false} SortCounts(s: seq<Record>)
    ensures multiset(SortNewestFirst(s)) == multiset(s)
  {
    if s != [] {
      SortCounts(s[1..]);
      InsertCounts(s[0], SortNewestFirst(s[1..]));
      assert s == [s[0]] + s[1..];
    }
  }

  /** A trade not older than every trade of a newest-first list can go in front of it. */
  lemma NewestFirstCons(y: Record, r: seq<Record>)
    requires NewestFirst(r)
    requires forall j :: 0 <= j < |r| ==> !Strings.Less(EntryKey(y), EntryKey(r[j]))
    ensures NewestFirst([y] + r)
  {
    forall i, j | 0 <= i < j < |[y] + r|
      ensures !Strings.Less(EntryKey(([y] + r)[i]), EntryKey(([y] + r)[j]))
    {
      if i > 0 {
        assert ([y] + r)[i] == r[i - 1];
      }
      assert ([y] + r)[j] == r[j - 1];
    }
  }

  lemma NewestFirstTail(r: seq<Record>)
    requires r != [] && NewestFirst(r)
    ensures NewestFirst(r[1..])
  {
    forall i, j | 0 <= i < j < |r[1..]|
      ensures !Strings.Less(EntryKey(r[1..][i]), EntryKey(r[1..][j]))
    {
      assert r[1..][i] == r[i + 1] && r[1..][j] == r[j + 1];
    }
  }

  /** When `x` goes behind the head of `r`, nothing behind the head is newer than it. */
  lemma InsertBelowHead(x: Record, r: seq<Record>)
    requires r != [] && NewestFirst(r) && Strings.Less(EntryKey(x), EntryKey(r[0]))
    ensures forall j :: 0 <= j < |Insert(x, r[1..])| ==> !Strings.Less(EntryKey(r[0]), EntryKey(Insert(x, r[1..])[j]))
  {
    var tail := Insert(x, r[1..]);
    InsertCounts(x, r[1..]);
    forall j | 0 <= j < |tail|
      ensures !Strings.Less(EntryKey(r[0]), EntryKey(tail[j]))
    {
      var y := tail[j];
      assert y in multiset(tail);
      if y == x {
        if Strings.Less(EntryKey(r[0]), EntryKey(x)) {
          Strings.LessTransitive(EntryKey(x), EntryKey(r[0]), EntryKey(x));
          Strings.LessIrreflexive(EntryKey(x));
        }
      } else {
        assert y in r[1..];
        var k :| 0 <= k < |r[1..]| && r[1..][k] == y;
        assert r[k + 1] == y;
      }
    }
  }

  lemma {:induction false} InsertNewestFirst(x: Record, r: seq<Record>)
    requires NewestFirst(r)
    ensures NewestFirst(Insert(x, r))
  {
    if r != [] && Strings.Less(EntryKey(x), EntryKey(r[0])) {
      var tail := Insert(x, r[1..]);
      NewestFirstTail(r);
      InsertNewestFirst(x, r[1..]);
      InsertBelowHead(x, r);
      NewestFirstCons(r[0], tail);
    } else {
      forall j | 0 <= j < |r|
        ensures !Strings.Less(EntryKey(x), EntryKey(r[j]))
      {
        if j > 0 {
          Strings.NotLessTransitive(EntryKey(x), EntryKey(r[0]), EntryKey(r[j]));
        }
      }
      NewestFirstCons(x, r);
    }
  }

  /** The sorted journal is ordered newest first. */
  lemma {:induction false} SortIsNewestFirst(s: seq<Record>)
    ensures NewestFirst(SortNewestFirst(s))
  {
    if s != [] {
      SortIsNewestFirst(s[1..]);
      InsertNewestFirst(s[0], SortNewestFirst(s[1..]));
    }
  }

  /** The trades of `s` whose sort key is `k`, in their order in `s`. */
  function WithKey(s: seq<Record>, k: string): seq<Record>
  {
    if s == [] then [] else (if EntryKey(s[0]) == k then [s[0]] else []) + WithKey(s[1..], k)
  }

  lemma WithKeyCons(y: Record, s: seq<Record>, k: string)
    ensures WithKey([y] + s, k) == (if EntryKey(y) == k then [y] else []) + WithKey(s, k)
  {
    assert ([y] + s)[0] == y && ([y] + s)[1..] == s;
  }

  lemma {:induction false} InsertWithKey(x: Record, r: seq<Record>, k: string)
    ensures WithKey(Insert(x, r), k) == (if EntryKey(x) == k then [x] else []) + WithKey(r, k)
  {
    if r != [] && Strings.Less(EntryKey(x), EntryKey(r[0])) {
      InsertWithKey(x, r[1..], k);
      InsertWithKeyBelow(x, r, k);
    } else {
      WithKeyCons(x, r, k);
    }
  }

  /** When `x` moves past the head of `r`, the head still precedes `x` and they never share a key. */
  lemma InsertWithKeyBelow(x: Record, r: seq<Record>, k: string)
    requires r != [] && Strings.Less(EntryKey(x), EntryKey(r[0]))
    requires WithKey(Insert(x, r[1..]), k) == (if EntryKey(x) == k then [x] else []) + WithKey(r[1..], k)
    ensures WithKey(Insert(x, r), k) == (if EntryKey(x) == k then [x] else []) + WithKey(r, k)
  {
    var tail := Insert(x, r[1..]);
    var rest := WithKey(r[1..], k);
    var own: seq<Record> := if EntryKey(x) == k then [x] else [];
    var head: seq<Record> := if EntryKey(r[0]) == k then [r[0]] else [];
    assert Insert(x, r) == [r[0]] + tail;
    WithKeyCons(r[0], tail, k);
    assert WithKey(Insert(x, r), k) == head + (own + rest);
    assert WithKey(r, k) == head + rest;
    if EntryKey(x) == k {
      Strings.LessIrreflexive(EntryKey(x));
    }
    SwapEmpty(head, own, rest);
  }

  lemma SwapEmpty<T>(a: seq<T>, b: seq<T>, c: seq<T>)
    requires a == [] || b == []
    ensures a + (b + c) == b + (a + c)
  {
  }

  /**
   * The sort is stable: for every key, the trades carrying that key appear in
   * the sorted journal in the same order as in the input.
   */
  lemma {:induction false} SortIsStable(s: seq<Record>, k: string)
    ensures WithKey(SortNewestFirst(s), k) == WithKey(s, k)
  {
    if s != [] {
      SortIsStable(s[1..], k);
      InsertWithKey(s[0], SortNewestFirst(s[1..]), k);
    }
  }

  // ---------------------------------------------------------------------------
  // Pagination and the query
  // ---------------------------------------------------------------------------

  /** A slice bound as Python normalises it: negative counts from the end, then clamped. */
  function Clamp(i: int, n: nat): (r: nat)
    ensures r <= n
    ensures 0 <= i <= n ==> r == i
  {
    if i < 0 then (if i + n < 0 then 0 else i + n) else if i > n then n else i
  }

  /** Python's `s[start : stop]`. */
  function Slice(s: seq<Record>, start: int, stop: int): (r: seq<Record>)
  {
    var a := Clamp(start, |s|);
    var b := Clamp(stop, |s|);
    if a < b then s[a..b] else []
  }

  function Min(a: int, b: int): int { if a <= b then a else b }

  function Max(a: int, b: int): int { if a >= b then a else b }

  /** One page of the history and the filtered count before slicing. */
  datatype Page = Page(trades: seq<Record>, total: nat)

  /** Sorting raised: some sort key was neither a string nor empty. */
  datatype LedgerError = UnorderableEntryTimes

  /** `get_trades(limit, offset, symbol, status)` over the stored journal `ts`. */
  function GetTrades(ts: seq<Record>, limit: int, offset: int, symbol: Option<string>, status: Option<string>)
    : (r: Result<Page, LedgerError>)
    ensures (forall t :: t in ts ==> KeyIsText(t)) ==> r.Ok?
    ensures r.Err? ==> exists t :: t in ts && !KeyIsText(t)
    ensures r.Ok? ==> |r.value.trades| <= r.value.total
  {
    var selected := Select(ts, symbol, status);
    if |selected| >= 2 && exists t :: t in selected && !KeyIsText(t) then
      Err(UnorderableEntryTimes)
    else
      var sorted := SortNewestFirst(selected);
      Ok(Page(Slice(sorted, offset, offset + limit), |sorted|))
  }

  /** Every trade on a page is a stored trade that passes the filters. */
  lemma GetTradesFilters(ts: seq<Record>, limit: int, offset: int, symbol: Option<string>, status: Option<string>)
    ensures var r := GetTrades(ts, limit, offset, symbol, status);
      r.Ok? ==> forall t :: t in r.value.trades ==> t in ts && Matches(t, symbol, status)
  {
    var r := GetTrades(ts, limit, offset, symbol, status);
    if r.Ok? {
      var sorted := SortNewestFirst(Select(ts, symbol, status));
      SortCounts(Select(ts, symbol, status));
      forall t | t in r.value.trades
        ensures t in ts && Matches(t, symbol, status)
      {
        assert t in sorted;
        assert t in multiset(sorted);
        SelectCounts(ts, symbol, status, t);
      }
    }
  }

  /**
   * The query fails exactly when the sort has something to compare: at
   * least two trades pass the filters and one of them has a key that is not
   * text.  A bad key on a filtered-out trade, or on the only selected trade,
   * is harmless.
   */
  lemma GetTradesFails(ts: seq<Record>, limit: int, offset: int, symbol: Option<string>, status: Option<string>)
    ensures GetTrades(ts, limit, offset, symbol, status).Err? <==>
      CountMatching(ts, symbol, status) >= 2 && exists t :: t in ts && Matches(t, symbol, status) && !KeyIsText(t)
  {
    var selected := Select(ts, symbol, status);
    SelectSize(ts, symbol, status);
    forall t
      ensures t in selected <==> t in ts && Matches(t, symbol, status)
    {
      SelectCounts(ts, symbol, status, t);
    }
  }

  /** `total` counts the matching trades, whatever the page asked for. */
  lemma GetTradesTotal(ts: seq<Record>, limit: int, offset: int, symbol: Option<string>, status: Option<string>)
    ensures var r := GetTrades(ts, limit, offset, symbol, status);
      r.Ok? ==> r.value.total == CountMatching(ts, symbol, status)
  {
    SelectSize(ts, symbol, status);
  }

  /** Whether the query succeeds and the total it reports do not depend on `limit` and `offset`. */
  lemma TotalIgnoresPaging(ts: seq<Record>, symbol: Option<string>, status: Option<string>,
                           limit1: int, offset1: int, limit2: int, offset2: int)
    ensures GetTrades(ts, limit1, offset1, symbol, status).Ok? == GetTrades(ts, limit2, offset2, symbol, status).Ok?
    ensures GetTrades(ts, limit1, offset1, symbol, status).Ok? ==>
      GetTrades(ts, limit1, offset1, symbol, status).value.total == GetTrades(ts, limit2, offset2, symbol, status).value.total
  {
  }

  /** Every page is ordered newest first. */
  lemma GetTradesNewestFirst(ts: seq<Record>, limit: int, offset: int, symbol: Option<string>, status: Option<string>)
    ensures var r := GetTrades(ts, limit, offset, symbol, status);
      r.Ok? ==> NewestFirst(r.value.trades)
  {
    var r := GetTrades(ts, limit, offset, symbol, status);
    if r.Ok? {
      var sorted := SortNewestFirst(Select(ts, symbol, status));
      SortIsNewestFirst(Select(ts, symbol, status));
      var a := Clamp(offset, |sorted|);
      var b := Clamp(offset + limit, |sorted|);
      if a < b {
        NewestFirstSlice(sorted, a, b);
      }
    }
  }

  /** Any contiguous run of a newest-first list is newest first. */
  lemma NewestFirstSlice(s: seq<Record>, a: nat, b: nat)
    requires a <= b <= |s| && NewestFirst(s)
    ensures NewestFirst(s[a..b])
  {
    forall i, j | 0 <= i < j < b - a
      ensures !Strings.Less(EntryKey(s[a..b][i]), EntryKey(s[a..b][j]))
    {
      assert s[a..b][i] == s[a + i] && s[a..b][j] == s[a + j];
    }
  }

  /**
   * With a non-negative offset and limit the page is the sorted selection
   * from `offset` up to `offset + limit`, cut at its end.
   */
  lemma GetTradesPage(ts: seq<Record>, limit: nat, offset: nat, symbol: Option<string>, status: Option<string>)
    ensures var r := GetTrades(ts, limit, offset, symbol, status);
      var sorted := SortNewestFirst(Select(ts, symbol, status));
      var n := |sorted|;
      r.Ok? ==>
        && r.value.trades == sorted[Min(offset, n) .. Min(offset + limit, n)]
        && |r.value.trades| == Min(limit, Max(0, n - offset))
  {
  }

  /** The default arguments of `get_trades`: fifty trades, from the newest on. */
  const DefaultLimit: nat := 50
  const DefaultOffset: nat := 0

  /** Called with its defaults, the query returns the newest `min(50, total)` matching trades. */
  lemma DefaultPage(ts: seq<Record>, symbol: Option<string>, status: Option<string>)
    ensures var r := GetTrades(ts, DefaultLimit, DefaultOffset, symbol, status);
      r.Ok? ==>
        && |r.value.trades| == Min(DefaultLimit, r.value.total)
        && r.value.trades == SortNewestFirst(Select(ts, symbol, status))[..|r.value.trades|]
  {
    GetTradesPage(ts, DefaultLimit, DefaultOffset, symbol, status);
  }

  /**
   * What the query sorts is a permutation of the matching stored trades:
   * nothing is added and nothing is lost.
   */
  lemma SortedSelectionIsPermutation(ts: seq<Record>, symbol: Option<string>, status: Option<string>, t: Record)
    ensures multiset(SortNewestFirst(Select(ts, symbol, status)))[t]
         == if Matches(t, symbol, status) then multiset(ts)[t] else 0
  {
    SortCounts(Select(ts, symbol, status));
    SelectCounts(ts, symbol, status, t);
  }

  // ---------------------------------------------------------------------------
  // Lookup and append
  // ---------------------------------------------------------------------------

  /** `get_trade_by_id(trade_id)`: the first stored trade with that id, if any. */
  method GetTradeById(bc: BotController, tradeId: string) returns (r: Option<Record>)
    ensures r.None? <==> forall t :: t in bc.trades ==> Get(t, "id") != VStr(tradeId)
    ensures r.Some? ==> exists i :: (0 <= i < |bc.trades| && bc.trades[i] == r.value
      && Get(r.value, "id") == VStr(tradeId)
      && forall j :: 0 <= j < i ==> Get(bc.trades[j], "id") != VStr(tradeId))
  {
    var all := bc.trades;
    var i := 0;
    while i < |all|
      invariant 0 <= i <= |all|
      invariant forall j :: 0 <= j < i ==> Get(all[j], "id") != VStr(tradeId)
    {
      if Get(all[i], "id") == VStr(tradeId) {
        return Some(all[i]);
      }
      i := i + 1;
    }
    return None;
  }

  /** The record `append_trade` stores: `id`, `entry_time` and `open` filled in only where missing. */
  function WithTradeDefaults(data: Record, freshId: string, now: string): (r: Record)
    ensures r.Keys == data.Keys + {"id", "entry_time", "open"}
    ensures forall k :: k in data ==> r[k] == data[k]
    ensures "id" !in data ==> r["id"] == VStr(freshId)
    ensures "entry_time" !in data ==> r["entry_time"] == VStr(now)
    ensures "open" !in data ==> r["open"] == VBool(true)
  {
    var withId := if "id" in data then data else data["id" := VStr(freshId)];
    var withTime := if "entry_time" in withId then withId else withId["entry_time" := VStr(now)];
    if "open" in withTime then withTime else withTime["open" := VBool(true)]
  }

  /** Filling defaults into a record that already has them changes nothing. */
  lemma TradeDefaultsIdempotent(data: Record, freshId: string, now: string, freshId': string, now': string)
    ensures WithTradeDefaults(WithTradeDefaults(data, freshId, now), freshId', now')
         == WithTradeDefaults(data, freshId, now)
  {
  }

  /** `append_trade(trade_data)`: fills the defaults and passes the record to `add_trade` once. */
  method AppendTrade(bc: BotController, data: Record, freshId: string, now: string) returns (r: Record)
    modifies bc`trades
    ensures r == WithTradeDefaults(data, freshId, now)
    ensures bc.trades == old(bc.trades) + [r]
    ensures DistinctIds(old(bc.trades)) && !IdListed(old(bc.trades), r["id"]) ==> DistinctIds(bc.trades)
    ensures "id" in data && IdListed(old(bc.trades), data["id"]) ==> !DistinctIds(bc.trades)
  {
    r := data;
    if "id" !in r {
      r := r["id" := VStr(freshId)];
    }
    if "entry_time" !in r {
      r := r["entry_time" := VStr(now)];
    }
    if "open" !in r {
      r := r["open" := VBool(true)];
    }
    bc.AddTrade(r);
    AppendDistinctIds(old(bc.trades), r);
    if "id" in data && IdListed(old(bc.trades), data["id"]) {
      AppendListedIdDuplicates(old(bc.trades), r);
    }
  }

  /**
   * A caller's `id` is kept as given, so one already in the journal is
   * journalled a second time; only a trade without an id gets the generated
   * one, which keeps the ids unique as long as it is not already in use.
   */
  lemma AppendTradeIds(prev: seq<Record>, data: Record, freshId: string, now: string)
    ensures "id" in data && IdListed(prev, data["id"]) ==> !DistinctIds(prev + [WithTradeDefaults(data, freshId, now)])
    ensures "id" !in data ==>
      (DistinctIds(prev + [WithTradeDefaults(data, freshId, now)]) <==> DistinctIds(prev) && !IdListed(prev, VStr(freshId)))
  {
    var rec := WithTradeDefaults(data, freshId, now);
    AppendDistinctIds(prev, rec);
    if "id" in data && IdListed(prev, data["id"]) {
      AppendListedIdDuplicates(prev, rec);
    }
  }
}

=== FILE: hub.dfy ===
/**
 * The websocket connection manager: a list of live subscribers with connect,
 * disconnect (remove the first occurrence) and broadcast (drop every
 * subscriber whose send fails).
 */
module Hub {

  /** A live websocket connection; two are the same only if they are the same object. */
  class WebSocket {
    constructor ()
    {
    }
  }

  /** The `{"type": "price", "symbol", "price", "timestamp"}` message the poller broadcasts. */
  datatype PriceEvent = PriceEvent(symbol: string, price: real, timestamp: int)

  /** `list.remove(x)` after an `x in list` check: drops the first occurrence of `x`, if any. */
  function RemoveFirst<T(==)>(s: seq<T>, x: T): (r: seq<T>)
    ensures x !in s ==> r == s
    ensures x in s ==> |r| == |s| - 1
  {
    if s == [] then []
    else if s[0] == x then s[1..]
    else
      assert x in s[1..] <==> x in s;
      [s[0]] + RemoveFirst(s[1..], x)
  }

  /** Exactly one occurrence of `x` goes, and nothing else. */
  lemma {:induction false} RemoveFirstMultiset<T>(s: seq<T>, x: T)
    ensures multiset(RemoveFirst(s, x)) == multiset(s) - multiset{x}
  {
    if s != [] {
      assert s == [s[0]] + s[1..];
      if s[0] != x {
        RemoveFirstMultiset(s[1..], x);
      }
    }
  }

  /** Removing `x` from `p + [x] + q` where `p` does not hold `x` gives `p + q`. */
  lemma {:induction false} RemoveFirstAfter<T>(p: seq<T>, x: T, q: seq<T>)
    requires x !in p
    ensures RemoveFirst(p + [x] + q, x) == p + q
  {
    var s := p + [x] + q;
    if p == [] {
      assert s == [x] + q;
    } else {
      var rest := p[1..] + [x] + q;
      assert s == [p[0]] + rest;
      assert p[0] != x by {
        assert p[0] in p;
      }
      assert x !in p[1..] by {
        assert forall k :: 0 <= k < |p[1..]| ==> p[1..][k] == p[k + 1];
      }
      RemoveFirstAfter(p[1..], x, q);
      assert p + q == [p[0]] + (p[1..] + q);
    }
  }

  /** The subscribers of `s` whose send does not fail, in their order. */
  function Survivors<T>(s: seq<T>, fails: T -> bool): (r: seq<T>)
    ensures |r| <= |s|
  {
    if s == [] then []
    else
      var last := s[|s| - 1];
      Survivors(s[..|s| - 1], fails) + (if fails(last) then [] else [last])
  }

  lemma {:induction false} SurvivorsConcat<T>(a: seq<T>, b: seq<T>, fails: T -> bool)
    ensures Survivors(a + b, fails) == Survivors(a, fails) + Survivors(b, fails)
  {
    if b == [] {
      assert a + b == a;
    } else {
      SurvivorsConcat(a, b[..|b| - 1], fails);
      assert (a + b)[..|a + b| - 1] == a + b[..|b| - 1];
    }
  }

  /** Dropping failed subscribers a second time, with the same failures, drops nothing more. */
  lemma {:induction false} SurvivorsIdempotent<T>(s: seq<T>, fails: T -> bool)
    ensures Survivors(Survivors(s, fails), fails) == Survivors(s, fails)
  {
    if s != [] {
      var last := s[|s| - 1];
      var front := Survivors(s[..|s| - 1], fails);
      SurvivorsIdempotent(s[..|s| - 1], fails);
      var tail := if fails(last) then [] else [last];
      SurvivorsConcat(front, tail, fails);
      if !fails(last) {
        assert Survivors(tail, fails) == Survivors([], fails) + tail;
      }
    }
  }

  /** A socket is kept exactly when it was subscribed and its send does not fail. */
  lemma {:induction false} SurvivorsMembers<T>(s: seq<T>, fails: T -> bool, w: T)
    ensures w in Survivors(s, fails) <==> w in s && !fails(w)
  {
    if s != [] {
      SurvivorsMembers(s[..|s| - 1], fails, w);
      assert s == s[..|s| - 1] + [s[|s| - 1]];
    }
  }

  /**
   * One step of a broadcast over `snap`: with the first `i` sockets handled,
   * handling socket `i` (removing it when its send fails) leaves the first
   * `i + 1` handled.
   */
  lemma BroadcastStep<T>(snap: seq<T>, i: nat, fails: T -> bool, live: seq<T>)
    requires i < |snap|
    requires live == Survivors(snap[..i], fails) + snap[i..]
    ensures (if fails(snap[i]) then RemoveFirst(live, snap[i]) else live)
         == Survivors(snap[..i + 1], fails) + snap[i + 1..]
  {
    var ws, rest := snap[i], snap[i + 1..];
    var kept := Survivors(snap[..i], fails);
    var prefix := snap[..i + 1];
    assert prefix[..|prefix| - 1] == snap[..i] && prefix[|prefix| - 1] == ws;
    assert Survivors(prefix, fails) == kept + (if fails(ws) then [] else [ws]);
    assert snap[i..] == [ws] + rest;
    assert live == kept + [ws] + rest;
    if fails(ws) {
      SurvivorsMembers(snap[..i], fails, ws);
      RemoveFirstAfter(kept, ws, rest);
      assert Survivors(prefix, fails) == kept;
      assert RemoveFirst(live, ws) == kept + rest;
    } else {
      assert Survivors(prefix, fails) == kept + [ws];
    }
  }

  /** Recording the send to `s[i]` after those to `s[..i]` records the sends to `s[..i + 1]`. */
  lemma SentStep<T>(log: seq<T>, s: seq<T>, i: nat)
    requires i < |s|
    ensures log + s[..i] + [s[i]] == log + s[..i + 1]
  {
    assert s[..i + 1] == s[..i] + [s[i]];
  }

  /**
   * Each broadcast message's symbol held the message's price in the cache
   * recorded alongside it, from position `from` on.
   */
  ghost predicate StoredBeforeSent(messages: seq<PriceEvent>, caches: seq<map<string, real>>, from: nat)
  {
    |messages| == |caches| &&
    forall k :: from <= k < |messages| ==>
      messages[k].symbol in caches[k] && caches[k][messages[k].symbol] == messages[k].price
  }

  /** Logging one more message next to a cache that holds its price keeps the log consistent. */
  lemma StoredBeforeSentExtend(messages: seq<PriceEvent>, caches: seq<map<string, real>>,
                               m: PriceEvent, cache: map<string, real>)
    requires StoredBeforeSent(messages, caches, 0)
    requires m.symbol in cache && cache[m.symbol] == m.price
    ensures StoredBeforeSent(messages + [m], caches + [cache], 0)
  {
  }

  class ConnectionManager {
    /** The live subscribers, in connection order. */
    var active: seq<WebSocket>
    /** Every send attempted so far, in order. */
    ghost var attempted: seq<WebSocket>
    /** Every message broadcast so far, in order. */
    ghost var broadcasts: seq<PriceEvent>
    /** The price cache as it stood when each message of `broadcasts` went out. */
    ghost var cacheAtSend: seq<map<string, real>>

    /** Every message went out only after its price was in the cache. */
    ghost predicate Valid()
      reads this
    {
      StoredBeforeSent(broadcasts, cacheAtSend, 0)
    }

    constructor ()
      ensures active == [] && attempted == []
      ensures broadcasts == [] && cacheAtSend == [] && Valid()
    {
      active := [];
      attempted := [];
      broadcasts := [];
      cacheAtSend := [];
    }

    /** `connect(ws)`: the accepted socket joins at the end. */
    method Connect(ws: WebSocket)
      modifies this`active
      ensures active == old(active) + [ws]
    {
      active := active + [ws];
    }

    /** `disconnect(ws)`: removes its first occurrence, if any. */
    method Disconnect(ws: WebSocket)
      modifies this`active
      ensures active == RemoveFirst(old(active), ws)
    {
      if ws in active {
        active := RemoveFirst(active, ws);
      }
    }

    /** One `send_json` inside `try`: a socket whose send raises is disconnected. */
    method Send(ws: WebSocket, fails: WebSocket -> bool)
      modifies this`active, this`attempted
      ensures attempted == old(attempted) + [ws]
      ensures active == if fails(ws) then RemoveFirst(old(active), ws) else old(active)
    {
      attempted := attempted + [ws];
      if fails(ws) {
        Disconnect(ws);
      }
    }

    /**
     * `broadcast(message)`: one send to each socket of a snapshot of the
     * list, in order; `fails` tells which sends raise, and each of those
     * sockets is disconnected.  `cacheNow` is the price cache at the moment
     * of the call, which must already hold the message's price.
     */
    method Broadcast(message: PriceEvent, fails: WebSocket -> bool, ghost cacheNow: map<string, real>)
      requires Valid()
      requires message.symbol in cacheNow && cacheNow[message.symbol] == message.price
      modifies this`active, this`attempted, this`broadcasts, this`cacheAtSend
      ensures active == Survivors(old(active), fails)
      ensures attempted == old(attempted) + old(active)
      ensures broadcasts == old(broadcasts) + [message] && cacheAtSend == old(cacheAtSend) + [cacheNow]
      ensures Valid()
    {
      StoredBeforeSentExtend(broadcasts, cacheAtSend, message, cacheNow);
      broadcasts := broadcasts + [message];
      cacheAtSend := cacheAtSend + [cacheNow];
      var snapshot := active;
      var i := 0;
      while i < |snapshot|
        invariant 0 <= i <= |snapshot|
        invariant active == Survivors(snapshot[..i], fails) + snapshot[i..]
        invariant attempted == old(attempted) + snapshot[..i]
        invariant broadcasts == old(broadcasts) + [message] && cacheAtSend == old(cacheAtSend) + [cacheNow]
      {
        BroadcastStep(snapshot, i, fails, active);
        SentStep(old(attempted), snapshot, i);
        Send(snapshot[i], fails);
        assert active == Survivors(snapshot[..i + 1], fails) + snapshot[i + 1..];
        assert attempted == old(attempted) + snapshot[..i + 1];
        i := i + 1;
      }
      assert snapshot[..i] == snapshot;
    }
  }
}

=== FILE: poller.dfy ===
/**
 * One pass of the price poller over the configured symbols: each symbol's
 * ticker response either yields a last price, which is written into the
 * price cache and then broadcast to the hub's subscribers, or is ignored
 * (a failed condition or an exception caught for that symbol alone).
 */
module PricePolling {
  import opened Values
  import opened Hub

  /**
   * What the ticker request for one symbol produced: an exception from the
   * request or the JSON decoding, or the decoded body `j`.
   */
  datatype Response = Raised | Decoded(j: Value)

  /**
   * `j.get("retCode") == 0 and j.get("result", {}).get("list")` evaluated to
   * a true value without raising.
   */
  predicate Accepted(resp: Response)
  {
    resp.Decoded? && resp.j.VDict? &&
    PyEq(Get(resp.j.fields, "retCode"), VInt(0)) &&
    var result := GetOr(resp.j.fields, "result", VDict(map[]));
    result.VDict? && Truthy(Get(result.fields, "list"))
  }

  /**
   * `j["result"]["list"][0]["lastPrice"]`, or None when one of the lookups
   * raises; meaningful for an accepted response.
   */
  function FirstLastPrice(resp: Response): (r: Option<Value>)
    requires Accepted(resp)
    ensures var list := resp.j.fields["result"].fields["list"];
      r.Some? <==> list.VList? && list.items[0].VDict? && "lastPrice" in list.items[0].fields
    ensures r.Some? ==> r.value == resp.j.fields["result"].fields["list"].items[0].fields["lastPrice"]
  {
    var list := GetOr(resp.j.fields, "result", VDict(map[])).fields["list"];
    if list.VList? && list.items[0].VDict? && "lastPrice" in list.items[0].fields
    then Some(list.items[0].fields["lastPrice"])
    else None
  }

  /**
   * The price a response yields, where `parse` is float() on strings; None
   * when the body is rejected or anything on the way raises.
   */
  function Fetched(resp: Response, parse: string -> Option<real>): (r: Option<real>)
    ensures r.Some? ==> Accepted(resp) && FirstLastPrice(resp).Some?
    ensures r.Some? ==> ToFloat(FirstLastPrice(resp).value, parse) == r
    ensures Accepted(resp) && FirstLastPrice(resp).Some? ==> r == ToFloat(FirstLastPrice(resp).value, parse)
  {
    if !Accepted(resp) then None
    else match FirstLastPrice(resp)
      case None => None
      case Some(v) => ToFloat(v, parse)
  }

  /** The price cache after handling `syms` in order, starting from `cache`. */
  function CacheAfter(cache: map<string, real>, syms: seq<string>, fetch: string -> Response,
                      parse: string -> Option<real>): map<string, real>
  {
    if syms == [] then cache
    else
      var before := CacheAfter(cache, syms[..|syms| - 1], fetch, parse);
      var sym := syms[|syms| - 1];
      match Fetched(fetch(sym), parse)
      case None => before
      case Some(p) => before[sym := p]
  }

  /** The price events broadcast while handling `syms` in order. */
  function Events(syms: seq<string>, fetch: string -> Response, parse: string -> Option<real>, now: int)
    : seq<PriceEvent>
  {
    if syms == [] then []
    else
      var sym := syms[|syms| - 1];
      Events(syms[..|syms| - 1], fetch, parse, now) +
      match Fetched(fetch(sym), parse)
      case None => []
      case Some(p) => [PriceEvent(sym, p, now)]
  }

  /**
   * The cache entry rule: a symbol has an entry after the pass exactly when
   * it had one before or was polled with a usable price, and a polled symbol
   * with a usable price holds that price.
   */
  lemma {:induction false} CacheAfterEntry(cache: map<string, real>, syms: seq<string>, fetch: string -> Response,
                                           parse: string -> Option<real>, s: string)
    ensures s in CacheAfter(cache, syms, fetch, parse) <==>
      s in cache || (s in syms && Fetched(fetch(s), parse).Some?)
    ensures s in syms && Fetched(fetch(s), parse).Some? ==>
      CacheAfter(cache, syms, fetch, parse)[s] == Fetched(fetch(s), parse).value
    ensures !(s in syms && Fetched(fetch(s), parse).Some?) && s in cache ==>
      CacheAfter(cache, syms, fetch, parse)[s] == cache[s]
  {
    if syms != [] {
      var front := syms[..|syms| - 1];
      CacheAfterEntry(cache, front, fetch, parse, s);
      assert syms == front + [syms[|syms| - 1]];
      assert s in syms <==> s in front || s == syms[|syms| - 1];
    }
  }

  /** Entries are only overwritten, never removed. */
  lemma CacheNeverShrinks(cache: map<string, real>, syms: seq<string>, fetch: string -> Response,
                          parse: string -> Option<real>)
    ensures cache.Keys <= CacheAfter(cache, syms, fetch, parse).Keys
  {
    forall s | s in cache
      ensures s in CacheAfter(cache, syms, fetch, parse)
    {
      CacheAfterEntry(cache, syms, fetch, parse, s);
    }
  }

  /**
   * A symbol's entry depends only on that symbol's own response: two passes
   * whose responses differ everywhere except at `s` (an exception for every
   * other symbol, say) leave the same entry for `s`.
   */
  lemma PerSymbolIsolation(cache: map<string, real>, syms: seq<string>, fetch1: string -> Response,
                           fetch2: string -> Response, parse: string -> Option<real>, s: string)
    requires fetch1(s) == fetch2(s)
    ensures s in CacheAfter(cache, syms, fetch1, parse) <==> s in CacheAfter(cache, syms, fetch2, parse)
    ensures s in CacheAfter(cache, syms, fetch1, parse) ==>
      CacheAfter(cache, syms, fetch1, parse)[s] == CacheAfter(cache, syms, fetch2, parse)[s]
  {
    CacheAfterEntry(cache, syms, fetch1, parse, s);
    CacheAfterEntry(cache, syms, fetch2, parse, s);
  }

  /** Every event of the pass carries the price its symbol holds in the cache afterwards. */
  lemma {:induction false} EventsMatchCache(cache: map<string, real>, syms: seq<string>, fetch: string -> Response,
                                            parse: string -> Option<real>, now: int)
    ensures forall e :: e in Events(syms, fetch, parse, now) ==>
      e.symbol in syms && e.timestamp == now &&
      e.symbol in CacheAfter(cache, syms, fetch, parse) && CacheAfter(cache, syms, fetch, parse)[e.symbol] == e.price
  {
    if syms != [] {
      var front := syms[..|syms| - 1];
      EventsMatchCache(cache, front, fetch, parse, now);
      assert syms == front + [syms[|syms| - 1]];
      forall e | e in Events(syms, fetch, parse, now)
        ensures e.symbol in syms && e.timestamp == now
        ensures e.symbol in CacheAfter(cache, syms, fetch, parse)
        ensures CacheAfter(cache, syms, fetch, parse)[e.symbol] == e.price
      {
        var sym := syms[|syms| - 1];
        if e in Events(front, fetch, parse, now) {
          assert e.symbol in front;
          CacheAfterEntry(cache, front, fetch, parse, e.symbol);
        }
        CacheAfterEntry(cache, syms, fetch, parse, e.symbol);
      }
    }
  }

  /** Handling one more symbol extends the cache and the events by that symbol's outcome alone. */
  lemma PassStep(cache: map<string, real>, syms: seq<string>, i: nat, fetch: string -> Response,
                 parse: string -> Option<real>, now: int)
    requires i < |syms|
    ensures Fetched(fetch(syms[i]), parse).None? ==>
      CacheAfter(cache, syms[..i + 1], fetch, parse) == CacheAfter(cache, syms[..i], fetch, parse) &&
      Events(syms[..i + 1], fetch, parse, now) == Events(syms[..i], fetch, parse, now)
    ensures Fetched(fetch(syms[i]), parse).Some? ==>
      var p := Fetched(fetch(syms[i]), parse).value;
      CacheAfter(cache, syms[..i + 1], fetch, parse) == CacheAfter(cache, syms[..i], fetch, parse)[syms[i] := p] &&
      Events(syms[..i + 1], fetch, parse, now) == Events(syms[..i], fetch, parse, now) + [PriceEvent(syms[i], p, now)]
  {
    assert syms[..i + 1][..i] == syms[..i];
  }
  /**
   * What handling one symbol does to the cache, the broadcast messages and
   * the cache recorded with each: with a usable price it stores the price and
   * then broadcasts one event, recorded with the updated cache; otherwise
   * nothing changes.
   */
  ghost predicate StoreStep(sym: string, price: Option<real>, now: int,
                            cache: map<string, real>, pubs: seq<PriceEvent>, caches: seq<map<string, real>>,
                            cache': map<string, real>, pubs': seq<PriceEvent>, caches': seq<map<string, real>>)
  {
    match price
    case None => cache' == cache && pubs' == pubs && caches' == caches
    case Some(p) => cache' == cache[sym := p] && pubs' == pubs + [PriceEvent(sym, p, now)] && caches' == caches + [cache']
  }

  /**
   * What handling one symbol does to the hub: with a usable price one
   * broadcast, which tries every live subscriber once and drops the failed
   * ones; otherwise the subscribers and the sends are untouched.
   */
  ghost predicate HubStep(price: Option<real>, fails: WebSocket -> bool,
                          live: seq<WebSocket>, sent: seq<WebSocket>, live': seq<WebSocket>, sent': seq<WebSocket>)
  {
    match price
    case None => live' == live && sent' == sent
    case Some(_) => live' == Survivors(live, fails) && sent' == sent + live
  }

  /**
   * The sends attempted by `n` broadcasts in a row, starting from the
   * subscribers `live`: the first reaches all of them, each later one the
   * survivors of the first.
   */
  function Attempts<T>(live: seq<T>, fails: T -> bool, n: nat): (r: seq<T>)
    ensures n > 0 ==> live <= r
  {
    if n == 0 then []
    else
      var before := Attempts(live, fails, n - 1);
      before + (if n == 1 then live else Survivors(live, fails))
  }

  /** The cache and the events after the first `i` symbols of a pass that started from `cache0` and `pubs0`. */
  ghost predicate PassInvariant(cache0: map<string, real>, pubs0: seq<PriceEvent>,
                                syms: seq<string>, i: nat, fetch: string -> Response,
                                parse: string -> Option<real>, now: int,
                                cache: map<string, real>, pubs: seq<PriceEvent>)
    requires i <= |syms|
  {
    cache == CacheAfter(cache0, syms[..i], fetch, parse) &&
    pubs == pubs0 + Events(syms[..i], fetch, parse, now)
  }

  /** The hub after `n` broadcasts of a pass that started from the subscribers `live0` and the sends `sent0`. */
  ghost predicate HubInvariant(live0: seq<WebSocket>, sent0: seq<WebSocket>, fails: WebSocket -> bool, n: nat,
                               live: seq<WebSocket>, sent: seq<WebSocket>)
  {
    live == (if n == 0 then live0 else Survivors(live0, fails)) &&
    sent == sent0 + Attempts(live0, fails, n)
  }

  /** Handling symbol `i` takes the pass invariant from `i` to `i + 1`. */
  lemma PassInvariantStep(cache0: map<string, real>, pubs0: seq<PriceEvent>,
                          syms: seq<string>, i: nat, fetch: string -> Response,
                          parse: string -> Option<real>, now: int,
                          cache: map<string, real>, pubs: seq<PriceEvent>, caches: seq<map<string, real>>,
                          cache': map<string, real>, pubs': seq<PriceEvent>, caches': seq<map<string, real>>)
    requires i < |syms|
    requires PassInvariant(cache0, pubs0, syms, i, fetch, parse, now, cache, pubs)
    requires StoreStep(syms[i], Fetched(fetch(syms[i]), parse), now, cache, pubs, caches, cache', pubs', caches')
    ensures PassInvariant(cache0, pubs0, syms, i + 1, fetch, parse, now, cache', pubs')
  {
    PassStep(cache0, syms, i, fetch, parse, now);
    match Fetched(fetch(syms[i]), parse)
    case None =>
    case Some(p) =>
      assert pubs' == pubs0 + Events(syms[..i + 1], fetch, parse, now);
  }

  /** One more symbol adds one event when it yields a price and none otherwise. */
  lemma EventsCountStep(syms: seq<string>, i: nat, fetch: string -> Response, parse: string -> Option<real>, now: int)
    requires i < |syms|
    ensures |Events(syms[..i + 1], fetch, parse, now)| ==
      |Events(syms[..i], fetch, parse, now)| + (if Fetched(fetch(syms[i]), parse).Some? then 1 else 0)
  {
    assert syms[..i + 1][..i] == syms[..i];
  }

  /** Handling one more symbol takes the hub invariant from `n` broadcasts to `n + 1` when it broadcasts. */
  lemma HubInvariantStep(live0: seq<WebSocket>, sent0: seq<WebSocket>, fails: WebSocket -> bool, n: nat,
                         price: Option<real>,
                         live: seq<WebSocket>, sent: seq<WebSocket>, live': seq<WebSocket>, sent': seq<WebSocket>)
    requires HubInvariant(live0, sent0, fails, n, live, sent)
    requires HubStep(price, fails, live, sent, live', sent')
    ensures HubInvariant(live0, sent0, fails, if price.Some? then n + 1 else n, live', sent')
  {
    if price.Some? {
      assert live' == Survivors(live0, fails) by {
        SurvivorsIdempotent(live0, fails);
      }
      assert sent' == sent0 + Attempts(live0, fails, n + 1) by {
        assert Attempts(live0, fails, n + 1) == Attempts(live0, fails, n) + live;
        assert sent' == sent0 + (Attempts(live0, fails, n) + live);
      }
      assert HubInvariant(live0, sent0, fails, n + 1, live', sent');
    } else {
      assert HubInvariant(live0, sent0, fails, n, live', sent');
    }
  }

  class PricePoller {
    /** `price_cache`: the last price read for each symbol. */
    var priceCache: map<string, real>
    /** The hub the prices are broadcast to. */
    const hub: ConnectionManager

    constructor (hub: ConnectionManager)
      ensures this.hub == hub && priceCache == map[]
    {
      this.hub := hub;
      priceCache := map[];
    }

    /**
     * The body of the loop for one symbol: a usable price is first stored,
     * then broadcast; anything else leaves every piece of state alone.
     */
    method HandleSymbol(sym: string, resp: Response, parse: string -> Option<real>, now: int,
                        fails: WebSocket -> bool)
      requires hub.Valid()
      modifies this`priceCache, hub`active, hub`attempted, hub`broadcasts, hub`cacheAtSend
      ensures StoreStep(sym, Fetched(resp, parse), now, old(priceCache), old(hub.broadcasts), old(hub.cacheAtSend),
                        priceCache, hub.broadcasts, hub.cacheAtSend)
      ensures HubStep(Fetched(resp, parse), fails, old(hub.active), old(hub.attempted), hub.active, hub.attempted)
      ensures hub.Valid()
    {
      if Accepted(resp) {
        var last := FirstLastPrice(resp);
        if last.Some? {
          var price := ToFloat(last.value, parse);
          if price.Some? {
            priceCache := priceCache[sym := price.value];
            hub.Broadcast(PriceEvent(sym, price.value, now), fails, priceCache);
          }
        }
      }
    }

    /**
     * One pass of the `for sym in ALLOWED_COINS` loop: `fetch` gives each
     * symbol's response, `parse` is float() on strings, `now` the timestamp
     * of the pass and `fails` which subscribers' sends raise.
     */
    method PollOnce(symbols: seq<string>, fetch: string -> Response, parse: string -> Option<real>,
                    now: int, fails: WebSocket -> bool)
      requires hub.Valid()
      modifies this`priceCache, hub`active, hub`attempted, hub`broadcasts, hub`cacheAtSend
      ensures priceCache == CacheAfter(old(priceCache), symbols, fetch, parse)
      ensures hub.broadcasts == old(hub.broadcasts) + Events(symbols, fetch, parse, now)
      ensures hub.Valid()
      ensures hub.active == if Events(symbols, fetch, parse, now) == [] then old(hub.active)
                            else Survivors(old(hub.active), fails)
      ensures hub.attempted == old(hub.attempted) + Attempts(old(hub.active), fails, |Events(symbols, fetch, parse, now)|)
    {
      var i := 0;
      while i < |symbols|
        invariant 0 <= i <= |symbols|
        invariant PassInvariant(old(priceCache), old(hub.broadcasts), symbols, i, fetch, parse, now,
                                priceCache, hub.broadcasts)
        invariant hub.Valid()
        invariant HubInvariant(old(hub.active), old(hub.attempted), fails, |Events(symbols[..i], fetch, parse, now)|,
                               hub.active, hub.attempted)
      {
        ghost var cache, pubs, caches, live, sent := priceCache, hub.broadcasts, hub.cacheAtSend, hub.active, hub.attempted;
        HandleSymbol(symbols[i], fetch(symbols[i]), parse, now, fails);
        PassInvariantStep(old(priceCache), old(hub.broadcasts), symbols, i, fetch, parse, now,
                          cache, pubs, caches, priceCache, hub.broadcasts, hub.cacheAtSend);
        EventsCountStep(symbols, i, fetch, parse, now);
        HubInvariantStep(old(hub.active), old(hub.attempted), fails, |Events(symbols[..i], fetch, parse, now)|,
                         Fetched(fetch(symbols[i]), parse), live, sent, hub.active, hub.attempted);
        i := i + 1;
      }
      assert symbols[..i] == symbols;
    }
  }
}

=== FILE: strings.dfy ===
/**
 * String operations the ledger uses: Python's ordering of `str` values
 * (lexicographic by code point) and ASCII lower-casing.
 */
module Strings {

  /** Python's `a < b` on strings. (Dafny's own `<` on sequences means "proper prefix".) */
  predicate Less(a: string, b: string)
  {
    if a == [] then b != []
    else if b == [] then false
    else if a[0] != b[0] then a[0] < b[0]
    else Less(a[1..], b[1..])
  }

  lemma {:induction false} LessIrreflexive(a: string)
    ensures !Less(a, a)
  {
    if a != [] {
      LessIrreflexive(a[1..]);
    }
  }

  lemma {:induction false} LessTransitive(a: string, b: string, c: string)
    requires Less(a, b) && Less(b, c)
    ensures Less(a, c)
  {
    if a != [] && b != [] && c != [] && a[0] == b[0] && b[0] == c[0] {
      LessTransitive(a[1..], b[1..], c[1..]);
    }
  }

  lemma {:induction false} LessTotal(a: string, b: string)
    ensures a == b || Less(a, b) || Less(b, a)
  {
    if a != [] && b != [] && a[0] == b[0] {
      LessTotal(a[1..], b[1..]);
      if a[1..] == b[1..] {
        assert a == [a[0]] + a[1..] && b == [b[0]] + b[1..];
      }
    }
  }

  /** "Not less than" is transitive, so a descending order can be checked pairwise. */
  lemma NotLessTransitive(a: string, b: string, c: string)
    requires !Less(a, b) && !Less(b, c)
    ensures !Less(a, c)
  {
    LessTotal(b, c);
    if Less(a, c) && Less(c, b) {
      LessTransitive(a, c, b);
    }
  }

  function LowerChar(c: char): char
  {
    if 'A' <= c <= 'Z' then (c as int + 32) as char else c
  }

  /** `s.lower()` restricted to ASCII letters. */
  function Lower(s: string): (r: string)
    ensures |r| == |s|
    ensures forall i :: 0 <= i < |s| ==> r[i] == LowerChar(s[i])
  {
    if s == [] then [] else [LowerChar(s[0])] + Lower(s[1..])
  }

  /** `a.lower() == b` for a lower-case `b`, stated character by character. */
  predicate EqualsIgnoringCase(a: string, b: string)
  {
    |a| == |b| && forall i :: 0 <= i < |a| ==> LowerChar(a[i]) == b[i]
  }

  lemma LowerMatches(a: string, b: string)
    ensures Lower(a) == b <==> EqualsIgnoringCase(a, b)
  {
    if EqualsIgnoringCase(a, b) {
      assert forall i :: 0 <= i < |a| ==> Lower(a)[i] == b[i];
    }
  }
}

=== FILE: values.dfy ===
/**
 * The dynamically typed records the services pass around: every account and
 * trade is a JSON object, i.e. a map from field names to JSON values.  This
 * module writes out the parts of Python's semantics the services rely on:
 * `dict.get`, truthiness, `or`, `==` between numbers of different types, and
 * `float(...)` applied to a stored value.
 */
module Values {

  datatype Option<T> = None | Some(value: T)

  datatype Result<T, E> = Ok(value: T) | Err(error: E)

  /** A JSON value as the services see it after decoding. */
  datatype Value =
    | VNone
    | VBool(b: bool)
    | VInt(i: int)
    | VFloat(f: real)
    | VStr(s: string)
    | VList(items: seq<Value>)
    | VDict(fields: map<string, Value>)

  /** An account or trade record. */
  type Record = map<string, Value>

  /** `r.get(key)`: a missing key reads as None. */
  function Get(r: Record, key: string): Value
  {
    if key in r then r[key] else VNone
  }

  /** `r.get(key, default)`: the default is used only when the key is missing. */
  function GetOr(r: Record, key: string, default: Value): Value
  {
    if key in r then r[key] else default
  }

  /** Python's truth value of a JSON value. */
  predicate Truthy(v: Value)
  {
    match v
    case VNone => false
    case VBool(b) => b
    case VInt(i) => i != 0
    case VFloat(f) => f != 0.0
    case VStr(s) => s != ""
    case VList(items) => items != []
    case VDict(fields) => fields != map[]
  }

  /** Python's `a or b`: the first operand if it is truthy, else the second. */
  function Or(a: Value, b: Value): (r: Value)
    ensures r == a || r == b
    ensures Truthy(r) <==> Truthy(a) || Truthy(b)
  {
    if Truthy(a) then a else b
  }

  /** `isinstance(v, (int, float))`; a Python bool is an int. */
  predicate IsNumber(v: Value)
  {
    v.VBool? || v.VInt? || v.VFloat?
  }

  /** `float(v)` for a number. */
  function NumberOf(v: Value): real
    requires IsNumber(v)
  {
    match v
    case VBool(b) => if b then 1.0 else 0.0
    case VInt(i) => i as real
    case VFloat(f) => f
  }

  /**
   * Python's `a == b` on decoded JSON values: numbers compare by value across
   * bool, int and float, lists element by element, dicts key by key, and
   * everything else structurally.
   */
  predicate PyEq(a: Value, b: Value)
    decreases a
  {
    if IsNumber(a) && IsNumber(b) then NumberOf(a) == NumberOf(b)
    else match a
      case VList(xs) =>
        b.VList? && |xs| == |b.items| && forall i :: 0 <= i < |xs| ==> PyEq(xs[i], b.items[i])
      case VDict(fs) =>
        b.VDict? && fs.Keys == b.fields.Keys && forall k :: k in fs ==> PyEq(fs[k], b.fields[k])
      case _ => a == b
  }

  lemma {:induction false} PyEqReflexive(a: Value)
    ensures PyEq(a, a)
    decreases a
  {
    match a
    case VList(xs) =>
      forall i | 0 <= i < |xs|
        ensures PyEq(xs[i], xs[i])
      {
        PyEqReflexive(xs[i]);
      }
    case VDict(fs) =>
      forall k | k in fs
        ensures PyEq(fs[k], fs[k])
      {
        PyEqReflexive(fs[k]);
      }
    case _ =>
  }

  /** Python's `==` on these values is symmetric. */
  lemma {:induction false} PyEqSymmetric(a: Value, b: Value)
    ensures PyEq(a, b) <==> PyEq(b, a)
    decreases a
  {
    match a
    case VList(xs) =>
      if b.VList? && |xs| == |b.items| {
        forall i | 0 <= i < |xs|
          ensures PyEq(xs[i], b.items[i]) <==> PyEq(b.items[i], xs[i])
        {
          PyEqSymmetric(xs[i], b.items[i]);
        }
      }
    case VDict(fs) =>
      if b.VDict? && fs.Keys == b.fields.Keys {
        forall k | k in fs
          ensures PyEq(fs[k], b.fields[k]) <==> PyEq(b.fields[k], fs[k])
        {
          PyEqSymmetric(fs[k], b.fields[k]);
        }
      }
    case _ =>
  }

  /** Comparing with a string is plain equality: a str equals only a str. */
  lemma {:induction false} PyEqString(a: Value, s: string)
    ensures PyEq(a, VStr(s)) <==> a == VStr(s)
    ensures PyEq(VStr(s), a) <==> a == VStr(s)
  {
  }

  /**
   * `float(v)`, where `parse` stands for float() applied to a string.
   * None means that float() raises (None, a list or a dict, or a string it
   * cannot read).
   */
  function ToFloat(v: Value, parse: string -> Option<real>): (r: Option<real>)
    ensures IsNumber(v) ==> r == Some(NumberOf(v))
    ensures v.VNone? || v.VList? || v.VDict? ==> r.None?
  {
    match v
    case VNone => None
    case VBool(b) => Some(if b then 1.0 else 0.0)
    case VInt(i) => Some(i as real)
    case VFloat(f) => Some(f)
    case VStr(s) => parse(s)
    case VList(_) => None
    case VDict(_) => None
  }

  /**
   * `next((a for a in s if a.get("id") == id), None)` as a position: the
   * first record whose id is the string `id`.
   */
  function FirstWithId(s: seq<Record>, id: string): (r: Option<nat>)
    ensures r.None? <==> forall a :: a in s ==> Get(a, "id") != VStr(id)
    ensures r.Some? ==> r.value < |s| && Get(s[r.value], "id") == VStr(id)
    ensures r.Some? ==> forall j :: 0 <= j < r.value ==> Get(s[j], "id") != VStr(id)
  {
    if s == [] then None
    else if Get(s[0], "id") == VStr(id) then Some(0)
    else match FirstWithId(s[1..], id)
      case None => None
      case Some(k) => Some(k + 1)
  }

  /** `v in [a.get("id") for a in s]`, with Python's `==`. */
  predicate IdListed(s: seq<Record>, v: Value)
  {
    exists a :: a in s && PyEq(Get(a, "id"), v)
  }

  /** No two records of `s` have ids that are equal under Python's `==`. */
  predicate DistinctIds(s: seq<Record>)
  {
    forall i, j :: 0 <= i < j < |s| ==> !PyEq(Get(s[i], "id"), Get(s[j], "id"))
  }

  /**
   * Appending a record keeps the ids of a collection unique exactly when they
   * were unique before and the new record's id is not already listed.
   */
  lemma AppendDistinctIds(s: seq<Record>, rec: Record)
    ensures DistinctIds(s + [rec]) <==> DistinctIds(s) && !IdListed(s, Get(rec, "id"))
  {
    var t := s + [rec];
    assert forall i :: 0 <= i < |s| ==> t[i] == s[i];
    assert t[|s|] == rec;
    if DistinctIds(t) {
      forall a | a in s
        ensures !PyEq(Get(a, "id"), Get(rec, "id"))
      {
        var i :| 0 <= i < |s| && s[i] == a;
        assert !PyEq(Get(t[i], "id"), Get(t[|s|], "id"));
      }
    }
    if DistinctIds(s) && !IdListed(s, Get(rec, "id")) {
      forall i, j | 0 <= i < j < |t|
        ensures !PyEq(Get(t[i], "id"), Get(t[j], "id"))
      {
        if j == |s| {
          assert t[i] in s;
        }
      }
    }
  }

  /** A record whose id is already listed becomes a second record with an equal id. */
  lemma AppendListedIdDuplicates(s: seq<Record>, rec: Record)
    requires IdListed(s, Get(rec, "id"))
    ensures !DistinctIds(s + [rec])
  {
    var a :| a in s && PyEq(Get(a, "id"), Get(rec, "id"));
    var i :| 0 <= i < |s| && s[i] == a;
    assert (s + [rec])[i] == a && (s + [rec])[|s|] == rec;
  }
}
